=== FILE: README.md ===
# pyrate in Dafny

pyrate is a small Python base class for HTTP API clients (`Pyrate`), with
thin service subclasses for Mailchimp and GitHub. This project models its
request-shaping and response-judging logic as pure Dafny functions over a
datatype of Python values, and proves what that logic promises.

Modules, one per concern of the source:

- `Values`: Python values (`None`, bools, ints, strings, lists, dicts,
  bytes and opaque objects), their truthiness, `==`, `in` and `[]`. It also
  holds the exceptions as an `Error` datatype inside a `Result`, and the
  predicate for "`json.dumps` accepts this".
- `Utf8`, `Base64`: `str.encode('utf-8')` (RFC 3629) and `base64.b64encode`
  (section 4 of RFC 4648), each with a decoder and a round-trip proof.
- `Dicts`: `clean_dict`, `Pyrate.build_content` and `dict.update`.
- `Query`: `append_qs` over `urlsplit`, `parse_qsl`, `urlencode` and
  `geturl`, with the query seen as a sequence of name/value pairs.
- `Pyrate`: client construction, `create_basic_auth`, `do`, `do_request`,
  the five verb proxies and `check_connection`.
- `Mailchimp`, `Github`: the two service clients.

A client is an immutable record. `do` returns the client as it is after
the call as well as the request it built, because the source updates the
client's default header and body dicts in place. The network is a
parameter `server: Request -> Value`: it maps a request to the decoded
response. An `Outcome` records the client after a call, the requests sent
in order, and the result or the exception raised.

## Model

| member | source | states |
|---|---|---|
| `Values.FalsyScalars` | pyrate/utils/__init__.py:16 | None, False, 0, '', [] and {} are falsy; every non-empty string is truthy |
| `Values.Truthy` | pyrate/utils/__init__.py:16 | a bool, int, string, list, dict or bytes value is truthy exactly when it does not equal the empty or zero value of its kind |
| `Values.EqReflexive` | pyrate/main.py:69 | Python `==` on the modelled values is reflexive, through lists and dicts |
| `Values.EqSymmetric` | pyrate/main.py:69 | Python `==` on the modelled values is symmetric, through lists and dicts |
| `Values.EqEmptyList` | pyrate/services/mailchimp.py:41 | `x == []` holds exactly when `x` is the empty list |
| `Values.Contains` | pyrate/main.py:67 | `key in d` on a dict is key membership; only dicts, lists and strings can be searched, anything else raises TypeError |
| `Values.GetItem` | pyrate/main.py:69 | `d[key]` succeeds exactly on a dict holding the key; a missing key raises KeyError(key), a non-dict raises TypeError |
| `Utf8.Encode` | pyrate/main.py:57 | UTF-8 output has between 1 and 4 bytes per character |
| `Utf8.EncodeAscii` | pyrate/main.py:57 | ASCII text encodes to its own code points, byte for byte |
| `Utf8.DecodeEncode` | pyrate/main.py:57 | decoding the UTF-8 encoding of any text gives the text back |
| `Base64.EncodeLength` | pyrate/main.py:57 | the Base64 text of n bytes is 4·⌈n/3⌉ characters long |
| `Base64.Encode` | pyrate/main.py:57 | the text is a whole number of four-character groups, and is empty exactly for no bytes |
| `Base64.EncodeAlphabet` | pyrate/main.py:57 | every character is from the RFC 4648 alphabet or `=`; `=` occurs only in the last two positions, and not at all when n is a multiple of 3 |
| `Base64.DecodeEncode` | pyrate/main.py:57 | decoding the Base64 encoding of any byte string gives the bytes back |
| `Base64.IndexOfCharOf` | pyrate/main.py:57 | the 64-character alphabet is a bijection with 0..63 |
| `Dicts.CleanDict` | pyrate/utils/__init__.py:14-16 | an entry is kept iff its value is truthy, with its value unchanged |
| `Dicts.CleanDictSubset` | pyrate/utils/__init__.py:16 | the cleaned keys are a subset of the input keys |
| `Dicts.CleanDictIdempotent` | pyrate/utils/__init__.py:16 | cleaning twice is cleaning once |
| `Dicts.CleanDictFixedPoint` | pyrate/utils/__init__.py:16 | a dict is its own cleaning iff none of its values is falsy |
| `Dicts.BuildContent` | pyrate/main.py:76-86 | deletes 'self' from the caller's dict; the result keeps exactly the other truthy entries, agreeing with `clean_dict` when there was no 'self' |
| `Dicts.Update` | pyrate/main.py:96-102 | `base.update(o)`: every key of `o` with o's value, every other key of `base` with its base value, nothing else |
| `Dicts.UpdateIdempotent` | pyrate/main.py:96-102 | updating again with the same dict changes nothing, and an empty update is the identity |
| `Dicts.UpdateSerializable` | pyrate/main.py:96-129 | the merged body can be JSON-encoded iff every per-call value can, and so can every default value the call does not override |
| `Query.SplitOnJoin` | pyrate/utils/__init__.py:22-25 | splitting on '&' undoes joining with '&' when no field holds '&' |
| `Query.Split` | pyrate/utils/__init__.py:21 | the part before the query holds neither '?' nor '#', and the query holds no '#' |
| `Query.Unsplit` | pyrate/utils/__init__.py:25 | the URL starts with the part before the query; '?' and the query follow only when the query is non-empty, and '#' and the fragment end it only when the fragment is non-empty |
| `Query.SplitUnsplit` | pyrate/utils/__init__.py:21-25 | a URL assembled from well-formed parts splits back into those parts |
| `Query.ParseQsl` | pyrate/utils/__init__.py:22 | every pair `parse_qsl` yields is readable back (no '&' or '=' in the name, no '&' in the value, a non-blank value), and an empty query yields none |
| `Query.Urlencode` | pyrate/utils/__init__.py:25 | the text is empty iff there are no pairs; split on '&' it gives one `name=value` field per pair, in order, when no name or value holds '&' |
| `Query.ParseUrlencode` | pyrate/utils/__init__.py:22-25 | `parse_qsl(urlencode(pairs))` gives back every pair readable back |
| `Query.AppendQs` | pyrate/utils/__init__.py:19-25 | the result keeps the part of the URL before the query, and a '?' always follows it, so the result always has a query |
| `Query.AppendQsQuery` | pyrate/utils/__init__.py:19-25 | everything outside the query is unchanged; the existing pairs are kept in order with the new pair last, and a blank value (the default) is not read back |
| `Query.AppendQsFreshExample` | pyrate/utils/__init__.py:19-25 | `append_qs('https://h/p', 'a', '1')` is 'https://h/p?a=1' |
| `Query.AppendQsExistingExample` | pyrate/utils/__init__.py:19-25 | `append_qs('https://h/p?x=1', 'a', '1')` is 'https://h/p?x=1&a=1' |
| `Query.AppendQsAsWritten` | pyrate/utils/__init__.py:25 | as written, every call whose target `urlsplit` accepts raises AttributeError, because `six.moves.urllib` has no `urlencode` |
| `Pyrate.Init` | pyrate/main.py:34-39 | the default verb is the first of `http_methods`, and an empty list raises IndexError; the default format is the first of `return_formats`, or '' |
| `Pyrate.InitBaseDefaults` | pyrate/main.py:23-39 | for the base class the defaults are 'GET' and '' |
| `Pyrate.CreateBasicAuth` | pyrate/main.py:41-57 | "Basic " followed by the Base64 of the UTF-8 of `user:password`, of length 4·⌈n/3⌉; it decodes back to `user:password` |
| `Pyrate.BasicAuthExample` | pyrate/main.py:57 | `create_basic_auth('u', 'p')` is 'Basic dTpw' |
| `Pyrate.UpperOf` | pyrate/main.py:131 | every character upper-cases to one to three characters, an ASCII character to its ASCII upper-case form, and a character that changes only to capital letters A-Z |
| `Pyrate.UpperAscii` | pyrate/main.py:131 | upper-casing never shortens text, and maps ASCII text character by character |
| `Pyrate.UpperAppend` | pyrate/main.py:131 | upper-casing distributes over concatenation |
| `Pyrate.UpperIdempotent` | pyrate/main.py:131 | upper-casing twice is upper-casing once |
| `Pyrate.ParseVerb` | pyrate/main.py:131-147 | an accepted verb's name is the upper-cased input; anything else is the invalid-method error |
| `Pyrate.ParseVerbAccepts` | pyrate/main.py:131-147 | a verb is accepted iff its upper-case form is one of the five names, so matching ignores case |
| `Pyrate.ParseVerbName` | pyrate/main.py:131-147 | each of the five verb names is accepted as its verb |
| `Pyrate.ParseVerbLower` | pyrate/main.py:131-147 | each of the five verb names in lower case is accepted as its verb |
| `Pyrate.VerbNameUnique` | pyrate/main.py:131-145 | the five names are distinct, so a name identifies its verb |
| `Pyrate.ParseVerbUnicode` | pyrate/main.py:131-144 | 'poſt' and 'poﬆ' are accepted as POST and 'optıons' as OPTIONS, since `str.upper` maps ſ to S, ﬆ to ST and ı to I |
| `Pyrate.ParseVerbRejectsPatch` | pyrate/main.py:146-147 | 'patch' is refused |
| `Pyrate.EncodeBody` | pyrate/main.py:124-129 | with `send_json`, a body `json.dumps` accepts goes out as JSON; otherwise the dict goes out unchanged |
| `Pyrate.DoRequest` | pyrate/main.py:117-147 | OAUTH1 raises NotImplementedError; otherwise a request exists iff the verb is accepted, GET carries no body and the others carry the encoded body |
| `Pyrate.MergeInto` | pyrate/main.py:96-102 | no per-call dict leaves the default alone; a per-call dict on a None default raises AttributeError; otherwise the merge has `update`'s keys and values |
| `Pyrate.Suffix` | pyrate/main.py:107-111 | an explicit format is used verbatim; otherwise "." and the default format, or '' when the default is empty |
| `Pyrate.DoUrlAndVerb` | pyrate/main.py:104-115 | a request's URL is `base_url + method + suffix`; its verb is the given one, or the client's default, upper-cased |
| `Pyrate.Do` | pyrate/main.py:94-115 | per-call content on a None default body raises AttributeError; without a base URL there is no request; only the two default dicts of the client change, and neither does without per-call content or headers; a request's URL is `base_url + method + suffix` |
| `Pyrate.DoMergesInPlace` | pyrate/main.py:96-102 | per-call keys are merged into the client's own defaults, which keep them afterwards; the request carries the merged maps |
| `Pyrate.DoRejectsUnknownVerb` | pyrate/main.py:146-147 | an unknown verb builds no request, and raises the invalid-method error whenever the client has a base URL, is not OAuth1, and can merge the per-call dicts |
| `Pyrate.Get` | pyrate/main.py:158-159 | `get` sends GET, with no body |
| `Pyrate.Post` | pyrate/main.py:161-162 | `post` sends POST, with a body |
| `Pyrate.Put` | pyrate/main.py:164-165 | `put` sends PUT, with a body |
| `Pyrate.Delete` | pyrate/main.py:167-168 | `delete` sends DELETE, with a body |
| `Pyrate.Options` | pyrate/main.py:170-171 | `options` sends OPTIONS, with a body |
| `Pyrate.DoVerbOnly` | pyrate/main.py:158-171 | two calls that differ only in an accepted verb build the same URL, headers and client |
| `Pyrate.ShorthandsAgree` | pyrate/main.py:158-171 | each proxy succeeds iff `post` with the same arguments does, leaves the same client, and builds `post`'s request with its own verb (and, for `get`, no body) |
| `Pyrate.ProxyIsDo` | pyrate/main.py:158-171 | each proxy is `do` with its verb's name as `http_method` |
| `Pyrate.JudgeConnection` | pyrate/main.py:67-74 | a falsy response fails. For a dict response: success iff it holds the key and either no value is expected or the key's value equals it. For a list or string: success iff it contains the key and no value is expected; with a value expected, `res[key]` raises TypeError. Any other truthy response raises TypeError at `in`. Every failure that is not a TypeError carries the response |
| `Pyrate.CheckConnection` | pyrate/main.py:65-74 | with no check configured it raises TypeError without sending; otherwise an error of `do` ends it with nothing sent, and a built request is the only one sent, to `base_url + path + suffix`, with the result exactly the judgement of its response |
| `Pyrate.PingExample` | pyrate/main.py:94-149 | a Basic-auth client for https://api.example.com/ sends `ping` as GET to https://api.example.com/ping with 'Authorization: Basic dTpw' |
| `Pyrate.PostJsonExample` | pyrate/main.py:94-129 | a POST without content sends the default body {"apikey": "abc"} as JSON to the base URL and the path |
| `Mailchimp.LastThree` | pyrate/services/mailchimp.py:27 | `s[-3:]`: the last three characters, or all of a shorter string |
| `Mailchimp.MailchimpInit` | pyrate/services/mailchimp.py:25-30 | the base URL is 'https://' + last three key characters + '.api.mailchimp.com/2.0/'; the default body is exactly {'apikey': key} |
| `Mailchimp.DatacenterExample` | pyrate/services/mailchimp.py:27 | a key ending in '-us5' gives https://us5.api.mailchimp.com/2.0/ |
| `Mailchimp.ParseErrorsAsWritten` | pyrate/services/mailchimp.py:50-52 | with 'error' present, the message formatting raises KeyError('error') |
| `Mailchimp.CheckResponseSuccessAsWritten` | pyrate/services/mailchimp.py:38-48 | as written, a response with 'error' raises KeyError; otherwise it agrees with the intended judgement |
| `Mailchimp.CheckResponseSuccessAsWrittenRaises` | pyrate/services/mailchimp.py:46-52 | every dict with 'error' makes the check as written raise, where False is intended |
| `Mailchimp.CheckErrorsKey` | pyrate/services/mailchimp.py:39-44 | on a dict, success iff 'errors' is absent or equals [] |
| `Mailchimp.CheckResponseSuccess` | pyrate/services/mailchimp.py:38-48 | False whenever 'error' is present; otherwise True iff 'errors' is absent or equals []; a response that cannot be searched raises TypeError |
| `Mailchimp.JudgeLists` | pyrate/services/mailchimp.py:65-68 | the response's 'data' when it is judged a success, the whole response otherwise |
| `Mailchimp.JudgeListsAsWritten` | pyrate/services/mailchimp.py:65-68 | as written, a response with 'error' raises KeyError('error'); any other response is judged as intended |
| `Mailchimp.ListsCall` | pyrate/services/mailchimp.py:64-68 | one POST to lists/list, its response judged; only the default dicts of the client change, and the default body afterwards is updated with the content |
| `Mailchimp.GetAllListsAsWritten` | pyrate/services/mailchimp.py:61-68 | as written, one POST judged by the check as written, so a response with 'error' raises KeyError; the client's default body keeps 'self' afterwards |
| `Mailchimp.GetAllListsAsWrittenLeaksSelf` | pyrate/services/mailchimp.py:64 | as written, the client object is in the body, so the body cannot be JSON and the default body keeps 'self' |
| `Mailchimp.GetAllLists` | pyrate/services/mailchimp.py:61-68 | one POST to lists/list whose result is the judged response |
| `Mailchimp.GetAllListsPostsApiKey` | pyrate/services/mailchimp.py:61-64 | without filters, a fresh client posts exactly {'apikey': key} as JSON and is unchanged afterwards |
| `Mailchimp.FindByName` | pyrate/services/mailchimp.py:70-76 | the first list named `name`; it is found whenever the lists before it have names; ListNotFoundError iff every list has a name and none matches |
| `Mailchimp.FindList` | pyrate/services/mailchimp.py:70-76 | a list is searched by name; a found entry comes from a list; not-found needs a list or an empty value |
| `Mailchimp.GetListByName` | pyrate/services/mailchimp.py:70-76 | the lists call, then the search; when the call yields a list, the result is the search of that list, so a list whose predecessors have names is found; a found entry has the requested name |
| `Mailchimp.SubscribeBody` | pyrate/services/mailchimp.py:85-94 | 'email' is always {'email': user_email}; 'id' and each option is present iff truthy, and then unchanged |
| `Mailchimp.SubscribeDropsFalse` | pyrate/services/mailchimp.py:85-94 | `double_optin=False` is left out of the body |
| `Mailchimp.PostForList` | pyrate/services/mailchimp.py:84-96 | the lookup POST to lists/list, then one POST to the given path |
| `Mailchimp.PostForListRequests` | pyrate/services/mailchimp.py:84-96 | the second POST carries the client's default body updated with the body for the found list's 'id', encoded as the client encodes |
| `Mailchimp.SubscribeToList` | pyrate/services/mailchimp.py:79-96 | two requests; the second is a POST to lists/subscribe |
| `Mailchimp.SubscribeRequests` | pyrate/services/mailchimp.py:79-96 | the subscription posts the API key merged with the subscribe body for the 'id' of the list found by name |
| `Mailchimp.UnsubscribeBody` | pyrate/services/mailchimp.py:104-109 | 'email' is always {'email': user_email}; 'id' and each option is present iff truthy, and then unchanged |
| `Mailchimp.UnsubscribeFromList` | pyrate/services/mailchimp.py:100-111 | two requests; the second is a POST to lists/unsubscribe |
| `Mailchimp.UnsubscribeRequests` | pyrate/services/mailchimp.py:100-111 | the unsubscription posts the API key merged with the unsubscribe body for the 'id' of the list found by name |
| `Github.GithubClientAsWritten` | pyrate/services/github.py:12-16 | the class attributes: the GitHub API base URL, JSON bodies, and a default body of None |
| `Github.GithubClient` | pyrate/services/github.py:12-16 | the same client with an empty default body |
| `Github.GetMyOrgs` | pyrate/services/github.py:36-37 | the client is unchanged |
| `Github.GetMyOrgsRequest` | pyrate/services/github.py:36-37 | for either form of the client, exactly one GET of https://api.github.com/user/orgs, with the client's headers and no body |
| `Github.RepoBody` | pyrate/services/github.py:40-41 | each of name, description and private is present iff truthy, and nothing else |
| `Github.RepoTarget` | pyrate/services/github.py:43 | the path is user/repos exactly when no organisation is given |
| `Github.CreateRepo` | pyrate/services/github.py:39-45 | a success is one POST |
| `Github.CreateRepoAsWrittenRaises` | pyrate/services/github.py:39-45 | as written, every `create_repo` raises AttributeError and sends nothing |
| `Github.CreateRepoPostsCleanBody` | pyrate/services/github.py:39-45 | posts the cleaned body, to orgs/<org>/repos for a non-empty organisation and to user/repos otherwise |
| `Github.CreateRepoDropsFalsePrivate` | pyrate/services/github.py:40-41 | `private=False` is left out, `private=True` is sent |
| `Github.DeleteRepo` | pyrate/services/github.py:47-50 | the client is unchanged |
| `Github.DeleteRepoRequest` | pyrate/services/github.py:47-50 | one DELETE of repos/<owner>/<name>; the owner is the organisation if given, else the stored user name |

## Left out

- The HTTP transport (`requests.get/post/...`) and `handle_response`. JSON decoding with its raw-bytes fallback is folded into the `server` parameter, which returns the decoded value or `Bytes`.
- `json.dumps` is abstract: a JSON payload stands for the encoding of its value, and the predicate `Serializable` says when encoding succeeds. `except TypeError or ValueError` catches only TypeError. NaN and infinities are encoded, not refused, and circular data cannot be formed from immutable values.
- `Pyrate.EncodeBody`: every int counts as encodable. CPython's `json.dumps` raises ValueError for an int beyond the interpreter's int-to-string digit limit (4300 digits by default, configurable at run time), and RecursionError for values nested beyond the recursion limit. Line 128 does not catch either, so with `send_json` `do_request` raises before the verb is read. `Pyrate.DoRequest` and `Pyrate.DoRejectsUnknownVerb` do not model those errors: for such a body they promise a request or InvalidRequestMethod where Python raises.
- Floats. `Value` has no float case, so a response holding 1.0 where an int is expected, and the `==` between them, is not modelled.
- Lone surrogates. A Dafny `char` is a Unicode scalar value, so text holding one cannot be built; in Python, `create_basic_auth('\ud800', 'p')` raises UnicodeEncodeError in `encode('utf-8')`.
- OAuth1: `get_oauth` is modelled only as the NotImplementedError it raises. `build_oauth1` wraps requests_oauthlib and is not part of this model.
- The Python 2 branch of `create_basic_auth`, which is interpreter-version plumbing.
- `Pyrate.CreateBasicAuth`: user and password are text. The Python 3 branch first decodes `bytes` arguments as UTF-8, and that step is not modelled.
- `Query.Split`: total. `urlsplit` raises ValueError for some malformed network locations: an unbalanced or invalid IPv6 bracket ('http://[::1/p', 'http://[xyz]/p'), or one whose NFKC form holds a reserved character ('http://a＃b/p'). On such targets Python's `append_qs` raises ValueError at line 21. `Query.AppendQs`, `Query.AppendQsQuery` and `Query.AppendQsAsWritten` return a URL or AttributeError instead.
- Percent-encoding in `urlencode` and percent-decoding in `parse_qsl` are taken as the identity. Also left out: the old ';' separator, and the scheme and netloc normalisation of `urlsplit`, which also strips leading C0 control and space characters and deletes tab, CR and LF anywhere in the URL; `Query.Split` keeps them. The URL is only split into what precedes the query, the query, and the fragment.
- `Query.AppendQsQuery`: stated for names without '&', '=' or '#' and values without '&' or '#', the pairs that survive a round trip with encoding taken as the identity.
- Dict insertion order. Dicts are maps, so the key order of the JSON text and of form bodies is not modelled.
- `Pyrate.UpperOf`: its promise that a changed character becomes only capitals A-Z holds of the model, not of `str.upper` in general, for the reason on the next line.
- `Pyrate.Upper`: maps ASCII letters, and every non-ASCII character whose upper-case form is all ASCII (ı, ſ, ß and the ligatures ﬀ to ﬆ); every other character is left unchanged. Python upper-cases many of those others (é to É), so `Pyrate.Upper` can differ from `str.upper`. Both results then hold a non-ASCII character, so neither is one of the five verb names, and `Pyrate.ParseVerb` agrees with `do_request` on every input.
- `Mailchimp.JudgeLists`: uses the intended `check_response_success`. So do `Mailchimp.GetAllLists`, `Mailchimp.GetListByName`, `Mailchimp.PostForList`, `Mailchimp.SubscribeToList`, `Mailchimp.UnsubscribeFromList` and the lemmas about them, which also post the intended `get_all_lists` body. As written, a response with 'error' raises KeyError('error') (`Mailchimp.JudgeListsAsWritten`), and the lookup posts 'self' and so goes out form-encoded (`Mailchimp.GetAllListsAsWritten`).
- `parse_errors` prints to the console. Only its exceptions are modelled (`Mailchimp.ParseErrorsAsWritten`), since they decide what `check_response_success` does.
- The GitHub constructor. It calls `get_auth_data`, which no visible class defines. The model takes the default headers and the stored user name as parameters of a constructed client. The class-level `auth_data` dict shared between instances is not modelled.
- `Github.DeleteRepo` and `Github.CreateRepo`: the organisation name is a string, and truthy means non-empty. `str(org_name)` of other values is not modelled.
- The `connection_check` dicts of the Mailchimp and GitHub classes are never read. `check_connection` reads `connection_check_method`, which is None for both, so `Pyrate.CheckConnection` raises TypeError for them.
- The `default_response_format` constructor argument of the service classes. It sets an attribute that no request reads.
- `build_basic_auth` only raises a deprecation error. pyrate/services/yelp.py and pyrate/tests/tests.py are not part of this model.

## Findings

| source | as written | input that shows it | evidently intended | confidence | as-written member | corrected member |
|---|---|---|---|---|---|---|
| pyrate/services/github.py:14,45 | `default_body_content = None`, and `create_repo` posts content, so `do` calls `None.update(kwargs)` | `create_repo('r')` on any GitHub client | the class starts from an empty default body, and the cleaned arguments are posted | not executed; high | `Github.GithubClientAsWritten`, `Github.CreateRepoAsWrittenRaises` | `Github.GithubClient`, `Github.CreateRepoPostsCleanBody` |
| pyrate/services/mailchimp.py:47,52 | `'... {error} (Code: {code})'.format(response)` passes the dict positionally, so the named field raises KeyError('error') | `check_response_success({'error': 'x', 'code': 1})` | the message is printed and False is returned | not executed; high | `Mailchimp.CheckResponseSuccessAsWritten`, `Mailchimp.CheckResponseSuccessAsWrittenRaises` | `Mailchimp.CheckResponseSuccess` |
| pyrate/services/mailchimp.py:64 | `clean_dict(locals())` keeps the truthy `self`. The body then cannot be JSON-encoded, goes out form-encoded, and stays in the client's default body | `get_all_lists()` on a fresh client | only the truthy keyword arguments are posted, as JSON | not executed; high | `Mailchimp.GetAllListsAsWritten`, `Mailchimp.GetAllListsAsWrittenLeaksSelf` | `Mailchimp.GetAllLists`, `Mailchimp.GetAllListsPostsApiKey` |
| pyrate/utils/__init__.py:2,25 | `urllib.urlencode` on `six.moves.urllib`, which only has the submodules parse, error, request, response and robotparser | `append_qs('u', 'a', '1')`; every call whose target `urlsplit` accepts raises AttributeError | `urllib.parse.urlencode(qsl)` | not executed; high | `Query.AppendQsAsWritten` | `Query.AppendQs`, `Query.AppendQsQuery` |

Also, as written, `subscribe_to_list` and `unsubscribe_from_list` drop the 'id' when the found list's id is falsy, because the body goes through `clean_dict`. `Mailchimp.SubscribeBody` states that behaviour, not an unconditional 'id'.

=== FILE: base64.dfy ===
/**
 The Base64 encoding of section 4 of RFC 4648 (alphabet `A-Z a-z 0-9 + /`,
 `=` padding), as computed by Python's `base64.b64encode`, and a decoder
 that inverts it.
 */
module Base64 {

  import opened Values

  /** The character for a 6-bit value (table 1 of RFC 4648). */
  function CharOf(i: nat): (c: char)
    requires i < 64
    ensures IsAlphabetChar(c)
  {
    if i < 26 then ('A' as int + i) as char
    else if i < 52 then ('a' as int + (i - 26)) as char
    else if i < 62 then ('0' as int + (i - 52)) as char
    else if i == 62 then '+'
    else '/'
  }

  predicate IsAlphabetChar(c: char) {
    ('A' <= c <= 'Z') || ('a' <= c <= 'z') || ('0' <= c <= '9') || c == '+' || c == '/'
  }

  /** The 6-bit value a character of the alphabet stands for. */
  function IndexOf(c: char): (i: nat)
    requires IsAlphabetChar(c)
    ensures i < 64 && CharOf(i) == c
  {
    if 'A' <= c <= 'Z' then c as int - 'A' as int
    else if 'a' <= c <= 'z' then c as int - 'a' as int + 26
    else if '0' <= c <= '9' then c as int - '0' as int + 52
    else if c == '+' then 62
    else 63
  }

  /** The alphabet is a bijection between 0..63 and its 64 characters. */
  lemma IndexOfCharOf(i: nat)
    requires i < 64
    ensures IndexOf(CharOf(i)) == i
  {
  }

  /** Three bytes (24 bits) become four characters. */
  function EncodeBlock(b0: Byte, b1: Byte, b2: Byte): seq<char> {
    [CharOf(b0 / 4), CharOf((b0 % 4) * 16 + b1 / 16), CharOf((b1 % 16) * 4 + b2 / 64), CharOf(b2 % 64)]
  }

  /** A final single byte: two characters and two pad characters. */
  function EncodeOne(b0: Byte): seq<char> {
    [CharOf(b0 / 4), CharOf((b0 % 4) * 16), '=', '=']
  }

  /** A final pair of bytes: three characters and one pad character. */
  function EncodeTwo(b0: Byte, b1: Byte): seq<char> {
    [CharOf(b0 / 4), CharOf((b0 % 4) * 16 + b1 / 16), CharOf((b1 % 16) * 4), '=']
  }

  /** `base64.b64encode(bs)`: four characters for every three bytes, the
      last group padded with `=`. */
  function Encode(bs: seq<Byte>): (r: string)
    ensures |r| % 4 == 0
    ensures r == [] <==> bs == []
    decreases |bs|
  {
    if |bs| == 0 then []
    else if |bs| == 1 then EncodeOne(bs[0])
    else if |bs| == 2 then EncodeTwo(bs[0], bs[1])
    else EncodeBlock(bs[0], bs[1], bs[2]) + Encode(bs[3..])
  }

  /** Exactly three bytes are one unpadded group. */
  lemma EncodeGroup(b0: Byte, b1: Byte, b2: Byte)
    ensures Encode([b0, b1, b2]) == EncodeBlock(b0, b1, b2)
  {
    assert [b0, b1, b2][3..] == [];
  }

  /** The output is 4 * ceil(n / 3) characters long. */
  lemma {:induction false} EncodeLength(bs: seq<Byte>)
    ensures |Encode(bs)| == 4 * ((|bs| + 2) / 3)
    decreases |bs|
  {
    if |bs| >= 3 {
      EncodeLength(bs[3..]);
      assert (|bs| + 2) / 3 == (|bs[3..]| + 2) / 3 + 1;
    }
  }

  /** Every character is
      from the alphabet except for the padding, and the padding (at most two
      `=`) only ends the text; there is none when n is a multiple of 3. */
  lemma {:induction false} EncodeAlphabet(bs: seq<Byte>)
    ensures forall i :: 0 <= i < |Encode(bs)| ==> IsAlphabetChar(Encode(bs)[i]) || Encode(bs)[i] == '='
    ensures forall i :: 0 <= i < |Encode(bs)| - 2 ==> IsAlphabetChar(Encode(bs)[i])
    ensures |bs| % 3 == 0 ==> forall i :: 0 <= i < |Encode(bs)| ==> IsAlphabetChar(Encode(bs)[i])
    decreases |bs|
  {
    var r := Encode(bs);
    if |bs| == 1 {
      var e := EncodeOne(bs[0]);
      assert r == e;
      assert IsAlphabetChar(e[0]) && IsAlphabetChar(e[1]) && e[2] == '=' && e[3] == '=';
    } else if |bs| == 2 {
      var e := EncodeTwo(bs[0], bs[1]);
      assert r == e;
      assert IsAlphabetChar(e[0]) && IsAlphabetChar(e[1]) && IsAlphabetChar(e[2]) && e[3] == '=';
    } else if |bs| >= 3 {
      var block, rest := EncodeBlock(bs[0], bs[1], bs[2]), Encode(bs[3..]);
      assert IsAlphabetChar(block[0]) && IsAlphabetChar(block[1]) && IsAlphabetChar(block[2]) && IsAlphabetChar(block[3]);
      EncodeAlphabet(bs[3..]);
      assert r == block + rest;
      assert |bs| % 3 == |bs[3..]| % 3;
      forall i | 0 <= i < |r|
        ensures IsAlphabetChar(r[i]) || r[i] == '='
        ensures i < |r| - 2 ==> IsAlphabetChar(r[i])
        ensures |bs| % 3 == 0 ==> IsAlphabetChar(r[i])
      {
        if i < 4 {
          assert r[i] == block[i];
          assert i == 0 || i == 1 || i == 2 || i == 3;
        } else {
          assert r[i] == rest[i - 4];
        }
      }
    }
  }

  function DecodeBlock(c0: char, c1: char, c2: char, c3: char): seq<Byte>
    requires IsAlphabetChar(c0) && IsAlphabetChar(c1) && IsAlphabetChar(c2) && IsAlphabetChar(c3)
  {
    var s0, s1, s2, s3 := IndexOf(c0), IndexOf(c1), IndexOf(c2), IndexOf(c3);
    [s0 * 4 + s1 / 16, (s1 % 16) * 16 + s2 / 4, (s2 % 4) * 64 + s3]
  }

  /** A decoder for the padded form `Encode` produces: the bytes of a whole
      number of four-character groups, padding only in the last, or `None`
      otherwise. `base64.b64decode` is more lenient, since it discards
      characters outside the alphabet; the two agree on every text `Encode`
      returns. */
  function Decode(s: string): Option<seq<Byte>>
    decreases |s|
  {
    if |s| == 0 then Some([])
    else if |s| < 4 || !IsAlphabetChar(s[0]) || !IsAlphabetChar(s[1]) then None
    else if |s| == 4 && s[2] == '=' && s[3] == '=' then
      Some([IndexOf(s[0]) * 4 + IndexOf(s[1]) / 16])
    else if |s| == 4 && IsAlphabetChar(s[2]) && s[3] == '=' then
      var s0, s1, s2 := IndexOf(s[0]), IndexOf(s[1]), IndexOf(s[2]);
      Some([s0 * 4 + s1 / 16, (s1 % 16) * 16 + s2 / 4])
    else if IsAlphabetChar(s[2]) && IsAlphabetChar(s[3]) then
      match Decode(s[4..])
      case None => None
      case Some(rest) => Some(DecodeBlock(s[0], s[1], s[2], s[3]) + rest)
    else None
  }

  lemma DecodeEncodeBlock(b0: Byte, b1: Byte, b2: Byte)
    ensures var e := EncodeBlock(b0, b1, b2);
            DecodeBlock(e[0], e[1], e[2], e[3]) == [b0, b1, b2]
  {
    var s0, s1, s2, s3 := b0 / 4, (b0 % 4) * 16 + b1 / 16, (b1 % 16) * 4 + b2 / 64, b2 % 64;
    IndexOfCharOf(s0);
    IndexOfCharOf(s1);
    IndexOfCharOf(s2);
    IndexOfCharOf(s3);
    assert s1 / 16 == b0 % 4 && s1 % 16 == b1 / 16;
    assert s2 / 4 == b1 % 16 && s2 % 4 == b2 / 64;
  }

  lemma DecodeEncodeOne(b0: Byte)
    ensures Decode(EncodeOne(b0)) == Some([b0])
  {
    IndexOfCharOf(b0 / 4);
    IndexOfCharOf((b0 % 4) * 16);
  }

  lemma DecodeEncodeTwo(b0: Byte, b1: Byte)
    ensures Decode(EncodeTwo(b0, b1)) == Some([b0, b1])
  {
    var s1, s2 := (b0 % 4) * 16 + b1 / 16, (b1 % 16) * 4;
    IndexOfCharOf(b0 / 4);
    IndexOfCharOf(s1);
    IndexOfCharOf(s2);
    assert s1 / 16 == b0 % 4 && s1 % 16 == b1 / 16;
    assert s2 / 4 == b1 % 16;
  }

  /** A full group in front of `rest` decodes to its three bytes in front of
      whatever `rest` decodes to. */
  lemma DecodeBlockPrefix(b0: Byte, b1: Byte, b2: Byte, rest: string)
    ensures Decode(EncodeBlock(b0, b1, b2) + rest)
         == match Decode(rest)
            case None => None
            case Some(tail) => Some([b0, b1, b2] + tail)
  {
    var e := EncodeBlock(b0, b1, b2);
    var s := e + rest;
    assert s[4..] == rest;
    assert s[..4] == e;
    DecodeEncodeBlock(b0, b1, b2);
  }

  /** One or two bytes decode back from their padded group. */
  lemma DecodeEncodeShort(bs: seq<Byte>)
    requires 0 < |bs| < 3
    ensures Decode(Encode(bs)) == Some(bs)
  {
    if |bs| == 1 {
      assert Encode(bs) == EncodeOne(bs[0]);
      DecodeEncodeOne(bs[0]);
      assert [bs[0]] == bs;
    } else {
      assert Encode(bs) == EncodeTwo(bs[0], bs[1]);
      DecodeEncodeTwo(bs[0], bs[1]);
      assert [bs[0], bs[1]] == bs;
    }
  }

  /** Decoding inverts encoding: `b64decode(b64encode(bs)) == bs`. */
  lemma {:induction false} DecodeEncode(bs: seq<Byte>)
    ensures Decode(Encode(bs)) == Some(bs)
    decreases |bs|
  {
    if 0 < |bs| < 3 {
      DecodeEncodeShort(bs);
    } else if |bs| >= 3 {
      var rest := Encode(bs[3..]);
      DecodeEncode(bs[3..]);
      assert Encode(bs) == EncodeBlock(bs[0], bs[1], bs[2]) + rest;
      DecodeBlockPrefix(bs[0], bs[1], bs[2], rest);
      assert [bs[0], bs[1], bs[2]] + bs[3..] == bs;
    }
  }
}

=== FILE: dicts.dfy ===
/**
 The dictionary helpers of the client: `clean_dict` from the utilities
 module, `Pyrate.build_content`, and the `dict.update` the request assembly
 uses to lay per-call keys over the client's defaults.
 */
module Dicts {

  import opened Values

  /** `clean_dict(d)`: the entries of `d` whose value is truthy. Every falsy
      value goes, not only empty strings: None, False, 0, '', [] and {}. */
  function CleanDict(d: Dict): (r: Dict)
    ensures forall k :: k in r <==> k in d && Truthy(d[k])
    ensures forall k :: k in r ==> r[k] == d[k]
  {
    map k | k in d && Truthy(d[k]) :: d[k]
  }

  /** The keys of the cleaned dict are keys of the input. */
  lemma CleanDictSubset(d: Dict)
    ensures CleanDict(d).Keys <= d.Keys
    ensures |CleanDict(d)| <= |d|
  {
    assert CleanDict(d).Keys <= d.Keys;
    SubsetCardinality(CleanDict(d).Keys, d.Keys);
  }

  lemma SubsetCardinality<K>(a: set<K>, b: set<K>)
    requires a <= b
    ensures |a| <= |b|
  {
    assert b == a + (b - a);
  }

  /** Cleaning twice is cleaning once. */
  lemma CleanDictIdempotent(d: Dict)
    ensures CleanDict(CleanDict(d)) == CleanDict(d)
  {
    var once := CleanDict(d);
    assert CleanDict(once).Keys == once.Keys;
  }

  /** Cleaning leaves nothing falsy behind, so a cleaned dict is its own
      cleaning exactly when it had no falsy value to begin with. */
  lemma CleanDictFixedPoint(d: Dict)
    ensures CleanDict(d) == d <==> forall k :: k in d ==> Truthy(d[k])
  {
    if forall k :: k in d ==> Truthy(d[k]) {
      assert CleanDict(d).Keys == d.Keys;
    }
  }

  /** The argument `v` under key `k` survives cleaning exactly when it is
      truthy, and then unchanged. */
  predicate Kept(r: Dict, k: string, v: Value) {
    (k in r <==> Truthy(v)) && (k in r ==> r[k] == v)
  }

  lemma CleanKeeps(d: Dict, k: string)
    requires k in d
    ensures Kept(CleanDict(d), k, d[k])
  {
  }

  /** `Pyrate.build_content(args)`: deletes 'self' from the caller's dict
      (hence the second result, the caller's dict afterwards), copies it,
      and deletes from the copy every key whose value is falsy. */
  method BuildContent(args: Dict) returns (content: Dict, argsAfter: Dict)
    ensures argsAfter == args - {"self"}
    ensures forall k :: k in content <==> k in args && k != "self" && Truthy(args[k])
    ensures forall k :: k in content ==> content[k] == args[k]
    ensures content == CleanDict(argsAfter)
    ensures "self" !in args ==> content == CleanDict(args)
  {
    argsAfter := if "self" in args then args - {"self"} else args;
    content := argsAfter;
    var pending := argsAfter.Keys;
    while pending != {}
      invariant pending <= argsAfter.Keys
      invariant forall k :: k in content <==> k in argsAfter && (k in pending || Truthy(argsAfter[k]))
      invariant forall k :: k in content ==> content[k] == argsAfter[k]
      decreases pending
    {
      var k :| k in pending;
      if !Truthy(argsAfter[k]) {
        content := content - {k};
      }
      pending := pending - {k};
    }
    assert content.Keys == CleanDict(argsAfter).Keys;
  }

  /** `base.update(override)`: every key of `override` with the override's
      value, every other key of `base` with the base value, nothing else. */
  function Update(base: Dict, override: Dict): (r: Dict)
    ensures r.Keys == base.Keys + override.Keys
    ensures forall k :: k in override ==> r[k] == override[k]
    ensures forall k :: k in base && k !in override ==> r[k] == base[k]
  {
    base + override
  }

  /** Updating with the same keys twice is updating once, and an empty
      update changes nothing. */
  lemma UpdateIdempotent(base: Dict, override: Dict)
    ensures Update(Update(base, override), override) == Update(base, override)
    ensures Update(base, map[]) == base
  {
  }

  /** `json.dumps` accepts a merged body exactly when it accepts every
      per-call value and every default value the call did not override: one
      value it cannot encode anywhere spoils the whole body. */
  lemma UpdateSerializable(base: Dict, override: Dict)
    ensures Serializable(Dict(Update(base, override)))
        <==> SerializableDict(override) && forall k :: k in base && k !in override ==> Serializable(base[k])
  {
    var r := Update(base, override);
    if Serializable(Dict(r)) {
      forall k | k in override
        ensures Serializable(override[k])
      {
        assert r[k] == override[k];
      }
      forall k | k in base && k !in override
        ensures Serializable(base[k])
      {
        assert r[k] == base[k];
      }
    }
  }
}

=== FILE: github.dfy ===
/**
 The GitHub service client `GithubPyrate`: its class configuration and the
 three endpoint helpers `get_my_orgs`, `create_repo` and `delete_repo`.
 */
module Github {

  import opened Values
  import Dicts
  import opened Pyrate

  const GithubUrl := "https://api.github.com/"

  /** The class attributes as written: JSON bodies, no default body. */
  const GithubAttrs := BaseAttrs.(baseUrl := Some(GithubUrl), sendJson := true)

  /** A GitHub client after construction: the client proper and the user
      name its constructor stored in the auth data (the owner `delete_repo`
      falls back on). The constructor sets the default headers to an
      Authorization entry; they are a parameter here. */
  datatype Github = Github(client: Client, username: string)

  /** A GitHub client with the class attributes as written, whose default
      body stays None. */
  function GithubClientAsWritten(headers: Dict, username: string): (g: Github)
    ensures g.client.attrs.baseUrl == Some(GithubUrl) && g.client.attrs.sendJson
    ensures g.client.attrs.defaultBody.None?
    ensures g.client.attrs.defaultHeaders == Some(headers) && g.username == username
    ensures g.client.defaultHttpMethod == "GET" && g.client.defaultReturnFormat == ""
  {
    var c := Init(GithubAttrs).value;
    Github(c.(attrs := c.attrs.(defaultHeaders := Some(headers))), username)
  }

  /** A GitHub client whose default body is an empty dict, as every helper
      that posts content needs. */
  function GithubClient(headers: Dict, username: string): (g: Github)
    ensures g.client.attrs.baseUrl == Some(GithubUrl) && g.client.attrs.sendJson
    ensures g.client.attrs.defaultBody == Some(map[])
    ensures g.client.attrs.defaultHeaders == Some(headers) && g.username == username
    ensures g.client.defaultHttpMethod == "GET" && g.client.defaultReturnFormat == ""
  {
    var g := GithubClientAsWritten(headers, username);
    g.(client := g.client.(attrs := g.client.attrs.(defaultBody := Some(map[]))))
  }

  /** `get_my_orgs()`: GET user/orgs without content. */
  function GetMyOrgs(g: Github, server: Request -> Value): (o: Outcome<Value>)
    ensures o.client == g.client
  {
    Send(Get(g.client, "user/orgs", None, None, None), server)
  }

  /** The organisation listing is one GET of the base URL and 'user/orgs',
      carrying the client's headers and no body, for either form of the
      client: no content is passed, so a None default body does no harm. */
  lemma GetMyOrgsRequest(g: Github, server: Request -> Value)
    requires g.client.attrs.baseUrl == Some(GithubUrl) && g.client.defaultReturnFormat == ""
    requires g.client.attrs.authType != Some("OAUTH1")
    ensures var o := GetMyOrgs(g, server);
            && o.sent == [Request(GET, GithubUrl + "user/orgs", g.client.attrs.defaultHeaders, None)]
            && o.result == Ok(server(o.sent[0]))
  {
    ParseVerbName(GET);
    DoUrlAndVerb(g.client, "user/orgs", None, None, Some("GET"), None);
  }

  /** The path `create_repo` posts to. */
  function RepoTarget(orgName: string): (r: string)
    ensures r == "user/repos" <==> orgName == ""
  {
    assert "orgs/" + orgName + "/repos" != "user/repos" by {
      assert ("orgs/" + orgName + "/repos")[0] == 'o';
    }
    if orgName != "" then "orgs/" + orgName + "/repos" else "user/repos"
  }

  /** The body of `create_repo`: the truthy ones of its three arguments. */
  function RepoBody(name: Value, description: Value, private: Value): (r: Dict)
    ensures r.Keys <= {"name", "description", "private"}
    ensures Dicts.Kept(r, "name", name)
    ensures Dicts.Kept(r, "description", description)
    ensures Dicts.Kept(r, "private", private)
  {
    var d := map["name" := name, "description" := description, "private" := private];
    Dicts.CleanKeeps(d, "name");
    Dicts.CleanKeeps(d, "description");
    Dicts.CleanKeeps(d, "private");
    Dicts.CleanDictSubset(d);
    Dicts.CleanDict(d)
  }

  /** `create_repo(name, description, org_name, private)`. */
  function CreateRepo(g: Github, name: Value, description: Value, orgName: string, private: Value,
                      server: Request -> Value): (o: Outcome<Value>)
    ensures o.result.Ok? ==> |o.sent| == 1 && o.sent[0].verb == POST && o.result == Ok(server(o.sent[0]))
  {
    Send(Post(g.client, RepoTarget(orgName), Some(RepoBody(name, description, private)), None, None), server)
  }

  /** With the class attributes as written every `create_repo` fails: the
      content is merged into a default body that is None, which has no
      `update`; nothing is sent. */
  lemma CreateRepoAsWrittenRaises(headers: Dict, username: string, name: Value, description: Value,
                                  orgName: string, private: Value, server: Request -> Value)
    ensures var o := CreateRepo(GithubClientAsWritten(headers, username), name, description, orgName, private, server);
            o.result == Err(AttributeError) && o.sent == []
  {
  }

  /** With an empty default body, `create_repo` posts, as JSON when the
      arguments can be encoded, exactly the truthy arguments, to
      orgs/<org>/repos for a non-empty organisation and to user/repos
      otherwise; the client's default body keeps those keys afterwards. */
  lemma CreateRepoPostsCleanBody(headers: Dict, username: string, name: Value, description: Value,
                                 orgName: string, private: Value, server: Request -> Value)
    ensures var g := GithubClient(headers, username);
            var o := CreateRepo(g, name, description, orgName, private, server);
            var body := RepoBody(name, description, private);
            && |o.sent| == 1
            && o.sent[0].verb == POST
            && o.sent[0].url == (if orgName != "" then GithubUrl + "orgs/" + orgName + "/repos"
                                 else GithubUrl + "user/repos")
            && o.sent[0].body == Some(EncodeBody(true, Dict(body)))
            && o.client.attrs.defaultBody == Some(body)
  {
    var g := GithubClient(headers, username);
    var body := RepoBody(name, description, private);
    ParseVerbName(POST);
    DoUrlAndVerb(g.client, RepoTarget(orgName), Some(body), None, Some("POST"), None);
    assert Dicts.Update(map[], body) == body;
    if orgName != "" {
      assert GithubUrl + RepoTarget(orgName) == GithubUrl + "orgs/" + orgName + "/repos";
    }
  }

  /** `private=False` is not sent as false: the key is left out. */
  lemma CreateRepoDropsFalsePrivate(name: Value, description: Value)
    ensures "private" !in RepoBody(name, description, Bool(false))
    ensures "private" in RepoBody(name, description, Bool(true))
  {
  }

  /** `delete_repo(name, org_name)`: the owner is the organisation when one
      is given, else the stored user name. */
  function DeleteRepo(g: Github, name: string, orgName: string, server: Request -> Value): (o: Outcome<Value>)
    ensures o.client == g.client
  {
    var owner := if orgName != "" then orgName else g.username;
    Send(Delete(g.client, "repos/" + owner + "/" + name, None, None, None), server)
  }

  /** The deletion is one DELETE of repos/<owner>/<name> under the base URL,
      for either form of the client, carrying the client's default body. */
  lemma DeleteRepoRequest(g: Github, name: string, orgName: string, server: Request -> Value)
    requires g.client.attrs.baseUrl == Some(GithubUrl) && g.client.defaultReturnFormat == ""
    requires g.client.attrs.authType.None?
    ensures var o := DeleteRepo(g, name, orgName, server);
            var owner := if orgName != "" then orgName else g.username;
            && |o.sent| == 1
            && o.sent[0].verb == DELETE
            && o.sent[0].url == GithubUrl + "repos/" + owner + "/" + name
            && o.sent[0].headers == g.client.attrs.defaultHeaders
            && o.sent[0].body == Some(EncodeBody(g.client.attrs.sendJson, BodyValue(g.client.attrs.defaultBody)))
  {
    var owner := if orgName != "" then orgName else g.username;
    ParseVerbName(DELETE);
    DoUrlAndVerb(g.client, "repos/" + owner + "/" + name, None, None, Some("DELETE"), None);
    assert GithubUrl + ("repos/" + owner + "/" + name) == GithubUrl + "repos/" + owner + "/" + name;
  }
}

=== FILE: mailchimp.dfy ===
/**
 The Mailchimp service client `MailchimpPyrate`: its construction from an API
 key, the success judgement over a decoded response, the list lookups and the
 subscribe and unsubscribe bodies.
 */
module Mailchimp {

  import opened Values
  import Dicts
  import opened Pyrate

  /** The class attributes: JSON bodies, no default headers; the base URL
      and the default body are filled in by the constructor. */
  const MailchimpAttrs := BaseAttrs.(sendJson := true)

  /** `apikey[-3:]`: the last three characters, or all of a shorter key. */
  function LastThree(s: string): (r: string)
    ensures |r| == if |s| < 3 then |s| else 3
    ensures s == s[..|s| - |r|] + r
  {
    if |s| < 3 then s else s[|s| - 3..]
  }

  /** `MailchimpPyrate(apikey)`: the datacenter is the key's last three
      characters; every request body starts from {'apikey': apikey}. */
  function MailchimpInit(apikey: string): (c: Client)
    ensures c.attrs.baseUrl == Some("https://" + LastThree(apikey) + ".api.mailchimp.com/2.0/")
    ensures c.attrs.defaultBody == Some(map["apikey" := Str(apikey)])
    ensures c.attrs.defaultHeaders.None? && c.attrs.sendJson
    ensures c.defaultHttpMethod == "GET" && c.defaultReturnFormat == ""
  {
    var c := Init(MailchimpAttrs).value;
    c.(attrs := c.attrs.(baseUrl := Some("https://" + LastThree(apikey) + ".api.mailchimp.com/2.0/"),
                         defaultBody := Some(map["apikey" := Str(apikey)])))
  }

  /** A key ending in its datacenter, "-us5", yields that datacenter's URL. */
  lemma DatacenterExample(prefix: string)
    ensures MailchimpInit(prefix + "-us5").attrs.baseUrl == Some("https://us5.api.mailchimp.com/2.0/")
  {
    var k := prefix + "-us5";
    assert LastThree(k) == "us5" by {
      assert k[|k| - 3..] == "us5";
    }
    assert "https://" + "us5" + ".api.mailchimp.com/2.0/" == "https://us5.api.mailchimp.com/2.0/";
  }

  /** `parse_errors(response)` as written. Its messages are built with
      `'... {error} (Code: {code})'.format(x)`, which has named fields but
      receives `x` positionally, so formatting raises `KeyError('error')`:
      for a response with 'error', and for every entry of a non-empty
      'errors'. */
  function ParseErrorsAsWritten(response: Value): (r: Result<()>)
    ensures Contains(response, "error") == Ok(true) ==> r == Err(KeyError("error"))
  {
    match Contains(response, "error")
    case Err(e) => Err(e)
    case Ok(true) => Err(KeyError("error"))
    case Ok(false) =>
      match Contains(response, "errors")
      case Err(e) => Err(e)
      case Ok(false) => Ok(())
      case Ok(true) =>
        match GetItem(response, "errors")
        case Err(e) => Err(e)
        case Ok(errors) =>
          match errors
          case List(items) => if |items| == 0 then Ok(()) else Err(KeyError("error"))
          case Dict(entries) => if |entries| == 0 then Ok(()) else Err(KeyError("error"))
          case Str(s) => if |s| == 0 then Ok(()) else Err(KeyError("error"))
          case Bytes(data) => if |data| == 0 then Ok(()) else Err(KeyError("error"))
          case _ => Err(TypeError)
  }

  /** `check_response_success(response)` as written: with 'error' present it
      calls `parse_errors` before returning False, and so raises. */
  function CheckResponseSuccessAsWritten(response: Value): (r: Result<bool>)
    ensures Contains(response, "error") == Ok(true) ==> r == Err(KeyError("error"))
    ensures Contains(response, "error") != Ok(true) ==> r == CheckResponseSuccess(response)
  {
    match Contains(response, "error")
    case Err(e) => Err(e)
    case Ok(false) => CheckErrorsKey(response)
    case Ok(true) =>
      match ParseErrorsAsWritten(response)
      case Err(e) => Err(e)
      case Ok(_) => Ok(false)
  }

  /** The 'errors' half of the judgement: success iff the list is empty. */
  function CheckErrorsKey(response: Value): (r: Result<bool>)
    requires response.Dict? || response.List? || response.Str?
    ensures response.Dict? ==> r == Ok("errors" !in response.entries || response.entries["errors"] == List([]))
  {
    EqEmptyList(if response.Dict? && "errors" in response.entries then response.entries["errors"] else PyNone);
    match Contains(response, "errors")
    case Err(e) => Err(e)
    case Ok(false) => Ok(true)
    case Ok(true) =>
      match GetItem(response, "errors")
      case Err(e) => Err(e)
      case Ok(errors) => Ok(Eq(errors, List([])))
  }

  /** A response reporting an error makes the check as written raise
      `KeyError` instead of answering False. */
  lemma CheckResponseSuccessAsWrittenRaises(response: Value)
    requires response.Dict? && "error" in response.entries
    ensures CheckResponseSuccessAsWritten(response) == Err(KeyError("error"))
    ensures CheckResponseSuccess(response) == Ok(false)
  {
  }

  /** `check_response_success(response)` as intended: False whenever
      'error' is present; otherwise, when 'errors' is present, True exactly
      when it is the empty list; True when neither is present. A response
      `in` cannot search raises `TypeError`. */
  function CheckResponseSuccess(response: Value): (r: Result<bool>)
    ensures Contains(response, "error") == Ok(true) ==> r == Ok(false)
    ensures response.Dict? && "error" !in response.entries && "errors" in response.entries ==>
              r == Ok(response.entries["errors"] == List([]))
    ensures response.Dict? && "error" !in response.entries && "errors" !in response.entries ==> r == Ok(true)
    ensures !(response.Dict? || response.List? || response.Str?) ==> r == Err(TypeError)
  {
    match Contains(response, "error")
    case Err(e) => Err(e)
    case Ok(true) => Ok(false)
    case Ok(false) =>
      CheckErrorsKey(response)
  }

  /** The value `get_all_lists` returns for a response: its 'data' when the
      response is judged a success, else the whole response. */
  function JudgeLists(response: Value): (r: Result<Value>)
    ensures response.Dict? && "error" in response.entries ==> r == Ok(response)
    ensures response.Dict? && "error" !in response.entries
            && ("errors" !in response.entries || response.entries["errors"] == List([])) ==>
              r == GetItem(response, "data")
    ensures (response.Dict? && "error" !in response.entries && "errors" in response.entries
             && response.entries["errors"] != List([])) ==> r == Ok(response)
  {
    match CheckResponseSuccess(response)
    case Err(e) => Err(e)
    case Ok(success) => if success then GetItem(response, "data") else Ok(response)
  }

  /** The value `get_all_lists` as written returns: the check as written
      raises for a response reporting an error, and otherwise agrees with
      `JudgeLists`. */
  function JudgeListsAsWritten(response: Value): (r: Result<Value>)
    ensures response.Dict? && "error" in response.entries ==> r == Err(KeyError("error"))
    ensures Contains(response, "error") != Ok(true) ==> r == JudgeLists(response)
  {
    match CheckResponseSuccessAsWritten(response)
    case Err(e) => Err(e)
    case Ok(success) => if success then GetItem(response, "data") else Ok(response)
  }

  /** The value `self` takes among the locals of a method: the client object. */
  const ClientSelf := Object(0)

  /** The keyword arguments of `get_all_lists`. */
  function ListArgs(filters: Value, start: Value, limit: Value, sortField: Value, sortDir: Value): Dict {
    map["filters" := filters, "start" := start, "limit" := limit, "sort_field" := sortField, "sort_dir" := sortDir]
  }

  /** The lists call: POST lists/list with `content`, the response judged
      by `judge`. The default body afterwards holds `content`. */
  function ListsCall(c: Client, content: Dict, server: Request -> Value, judge: Value -> Result<Value>): (o: Outcome<Value>)
    ensures o.result.Ok? ==> && |o.sent| == 1 && o.sent[0].verb == POST
                             && c.attrs.baseUrl.Some?
                             && o.sent[0].url == c.attrs.baseUrl.value + "lists/list" + Suffix(c.defaultReturnFormat, None)
                             && o.result == judge(server(o.sent[0]))
    ensures o.client == c.(attrs := c.attrs.(defaultBody := o.client.attrs.defaultBody,
                                             defaultHeaders := o.client.attrs.defaultHeaders))
    ensures c.attrs.defaultBody.Some? ==> o.client.attrs.defaultBody == Some(Dicts.Update(c.attrs.defaultBody.value, content))
  {
    var s := Post(c, "lists/list", Some(content), None, None);
    DoUrlAndVerb(c, "lists/list", Some(content), None, Some("POST"), None);
    var o := Send(s, server);
    match o.result
    case Err(e) => o
    case Ok(response) => Outcome(o.client, o.sent, judge(response))
  }

  /** `get_all_lists(...)` as written: the content is `clean_dict(locals())`,
      and the locals include `self`, which is truthy and survives cleaning. */
  function GetAllListsAsWritten(c: Client, filters: Value, start: Value, limit: Value, sortField: Value, sortDir: Value,
                                server: Request -> Value): (o: Outcome<Value>)
    ensures o.result.Ok? ==> |o.sent| == 1 && o.sent[0].verb == POST
                             && o.result == JudgeListsAsWritten(server(o.sent[0]))
    ensures c.attrs.defaultBody.Some? ==> && o.client.attrs.defaultBody.Some?
                                          && "self" in o.client.attrs.defaultBody.value
                                          && o.client.attrs.defaultBody.value["self"] == ClientSelf
  {
    var content := Dicts.CleanDict(ListArgs(filters, start, limit, sortField, sortDir)["self" := ClientSelf]);
    assert "self" in content && content["self"] == ClientSelf;
    ListsCall(c, content, server, JudgeListsAsWritten)
  }

  /** As written, the client object ends up in the body: `json.dumps` fails,
      the body goes out form-encoded, and the client's default body keeps the
      object for every later call, so no later body is JSON either. */
  lemma GetAllListsAsWrittenLeaksSelf(apikey: string, server: Request -> Value)
    ensures var o := GetAllListsAsWritten(MailchimpInit(apikey), PyNone, PyNone, PyNone, PyNone, PyNone, server);
            && |o.sent| == 1
            && o.sent[0].body.Some? && o.sent[0].body.value.Form?
            && o.client.attrs.defaultBody.Some? && "self" in o.client.attrs.defaultBody.value
  {
    var c := MailchimpInit(apikey);
    var content := Dicts.CleanDict(ListArgs(PyNone, PyNone, PyNone, PyNone, PyNone)["self" := ClientSelf]);
    assert "self" in content && content["self"] == ClientSelf;
    ParseVerbName(POST);
    var merged := Dicts.Update(map["apikey" := Str(apikey)], content);
    var s := Post(c, "lists/list", Some(content), None, None);
    assert s.client.attrs.defaultBody == Some(merged);
    assert !Serializable(Dict(merged)) by {
      assert merged["self"] == ClientSelf;
    }
  }

  /** `get_all_lists(...)` as intended: the content is the truthy keyword
      arguments, without `self`, as `build_content` would give. */
  function GetAllLists(c: Client, filters: Value, start: Value, limit: Value, sortField: Value, sortDir: Value,
                       server: Request -> Value): (o: Outcome<Value>)
    ensures o.result.Ok? ==> && |o.sent| == 1 && o.sent[0].verb == POST
                             && c.attrs.baseUrl.Some?
                             && o.sent[0].url == c.attrs.baseUrl.value + "lists/list" + Suffix(c.defaultReturnFormat, None)
                             && o.result == JudgeLists(server(o.sent[0]))
    ensures o.client == c.(attrs := c.attrs.(defaultBody := o.client.attrs.defaultBody,
                                             defaultHeaders := o.client.attrs.defaultHeaders))
  {
    ListsCall(c, Dicts.CleanDict(ListArgs(filters, start, limit, sortField, sortDir)), server, JudgeLists)
  }

  /** Without filters nothing is added to the body: a fresh client posts
      exactly {'apikey': apikey} as JSON and stays as it was. */
  lemma GetAllListsPostsApiKey(apikey: string, server: Request -> Value)
    ensures var c := MailchimpInit(apikey);
            var o := GetAllLists(c, PyNone, PyNone, PyNone, PyNone, PyNone, server);
            && o.client == c
            && |o.sent| == 1
            && o.sent[0].body == Some(Json(Dict(map["apikey" := Str(apikey)])))
  {
    var c := MailchimpInit(apikey);
    var content := Dicts.CleanDict(ListArgs(PyNone, PyNone, PyNone, PyNone, PyNone));
    assert content == map[];
    ParseVerbName(POST);
    var d := map["apikey" := Str(apikey)];
    assert Dicts.Update(d, content) == d;
    assert Serializable(Dict(d)) by {
      assert forall k :: k in d ==> d[k] == Str(apikey);
    }
  }

  /** The list entry has a 'name' key. */
  predicate Named(l: Value) {
    l.Dict? && "name" in l.entries
  }

  /** The list entry's 'name' equals `name`. */
  predicate NameIs(l: Value, name: string) {
    Named(l) && l.entries["name"] == Str(name)
  }

  /** The loop of `get_list_by_name` over a list of lists: the first entry
      whose 'name' equals `name`; `ListNotFound` when every entry has a name
      and none matches; an entry without 'name' before any match raises the
      lookup's error. */
  function FindByName(items: seq<Value>, name: string): (r: Result<Value>)
    ensures r.Ok? ==> exists i :: 0 <= i < |items| && items[i] == r.value && NameIs(items[i], name)
                                  && forall j :: 0 <= j < i ==> Named(items[j]) && !NameIs(items[j], name)
    ensures r == Err(ListNotFound) <==> forall i :: 0 <= i < |items| ==> Named(items[i]) && !NameIs(items[i], name)
    ensures (exists i :: 0 <= i < |items| && NameIs(items[i], name) && forall j :: 0 <= j < i ==> Named(items[j])) ==> r.Ok?
    decreases |items|
  {
    if |items| == 0 then Err(ListNotFound)
    else match GetItem(items[0], "name")
      case Err(e) => Err(e)
      case Ok(n) =>
        EqStr(n, name);
        if Eq(n, Str(name)) then Ok(items[0])
        else
          var r := FindByName(items[1..], name);
          assert forall i :: 1 <= i < |items| ==> items[i] == items[1..][i - 1];
          assert (exists i :: 0 <= i < |items| && NameIs(items[i], name) && forall j :: 0 <= j < i ==> Named(items[j])) ==> r.Ok? by {
            if i :| 0 <= i < |items| && NameIs(items[i], name) && forall j :: 0 <= j < i ==> Named(items[j]) {
              assert i != 0;
              assert NameIs(items[1..][i - 1], name);
            }
          }
          r
  }

  /** `for l in lists` over whatever `get_all_lists` returned: a list is
      searched; iterating a dict, a string or bytes yields keys, characters or
      integers, which cannot be indexed by 'name', so only an empty one ends
      in `ListNotFound`; anything else is not iterable. */
  function FindList(lists: Value, name: string): (r: Result<Value>)
    ensures lists.List? ==> r == FindByName(lists.items, name)
    ensures r.Ok? ==> lists.List? && NameIs(r.value, name)
    ensures r == Err(ListNotFound) ==> !Truthy(lists) || lists.List?
  {
    match lists
    case List(items) => FindByName(items, name)
    case Dict(entries) => if |entries| == 0 then Err(ListNotFound) else Err(TypeError)
    case Str(s) => if |s| == 0 then Err(ListNotFound) else Err(TypeError)
    case Bytes(data) => if |data| == 0 then Err(ListNotFound) else Err(TypeError)
    case _ => Err(TypeError)
  }

  /** `get_list_by_name(list_name)`: the lists call, then the search of the
      judged value. When the lists call yields a list, the result is the first
      entry named `listName`, found whenever the entries before it have names. */
  function GetListByName(c: Client, listName: string, server: Request -> Value): (o: Outcome<Value>)
    ensures o.result.Ok? ==> |o.sent| == 1 && JudgeLists(server(o.sent[0])).Ok?
                             && o.result == FindList(JudgeLists(server(o.sent[0])).value, listName)
    ensures o.result.Ok? ==> NameIs(o.result.value, listName)
    ensures o.result.Ok? ==> && o.sent[0].verb == POST && c.attrs.baseUrl.Some?
                             && o.sent[0].url == c.attrs.baseUrl.value + "lists/list" + Suffix(c.defaultReturnFormat, None)
    ensures var g := GetAllLists(c, PyNone, PyNone, PyNone, PyNone, PyNone, server);
            g.result.Ok? && g.result.value.List? ==> o.result == FindByName(g.result.value.items, listName)
    ensures var g := GetAllLists(c, PyNone, PyNone, PyNone, PyNone, PyNone, server);
            (g.result.Ok? && g.result.value.List? &&
             exists i :: 0 <= i < |g.result.value.items| && NameIs(g.result.value.items[i], listName)
                         && forall j :: 0 <= j < i ==> Named(g.result.value.items[j])) ==> o.result.Ok?
    ensures o.client == c.(attrs := c.attrs.(defaultBody := o.client.attrs.defaultBody,
                                             defaultHeaders := o.client.attrs.defaultHeaders))
  {
    var o := GetAllLists(c, PyNone, PyNone, PyNone, PyNone, PyNone, server);
    match o.result
    case Err(e) => Outcome(o.client, o.sent, Err(e))
    case Ok(lists) => Outcome(o.client, o.sent, FindList(lists, listName))
  }

  /** The optional keyword arguments of `subscribe_to_list`. */
  datatype SubscribeOptions = SubscribeOptions(
    mergeVars: Value, emailType: Value, doubleOptin: Value,
    updateExisting: Value, replaceInterests: Value, sendWelcome: Value)

  /** The 'email' argument, `{'email': user_email}`, is never empty. */
  function EmailArg(email: string): (v: Value)
    ensures Truthy(v)
  {
    var m := map["email" := Str(email)];
    assert "email" in m;
    Dict(m)
  }

  /** The keyword dict of `subscribe_to_list` before it is cleaned. */
  function SubscribeArgs(listId: Value, email: string, opts: SubscribeOptions): (d: Dict)
    ensures d.Keys == {"id", "email", "merge_vars", "email_type", "double_optin",
                       "update_existing", "replace_interests", "send_welcome"}
  {
    map["id" := listId, "email" := EmailArg(email),
        "merge_vars" := opts.mergeVars, "email_type" := opts.emailType,
        "double_optin" := opts.doubleOptin, "update_existing" := opts.updateExisting,
        "replace_interests" := opts.replaceInterests, "send_welcome" := opts.sendWelcome]
  }

  /** The body of `subscribe_to_list`: the cleaned keyword dict. */
  function SubscribeBody(listId: Value, email: string, opts: SubscribeOptions): (r: Dict)
    ensures r.Keys <= {"id", "email", "merge_vars", "email_type", "double_optin",
                       "update_existing", "replace_interests", "send_welcome"}
    ensures "email" in r && r["email"] == EmailArg(email)
    ensures Dicts.Kept(r, "id", listId)
    ensures Dicts.Kept(r, "merge_vars", opts.mergeVars) && Dicts.Kept(r, "email_type", opts.emailType)
    ensures Dicts.Kept(r, "double_optin", opts.doubleOptin) && Dicts.Kept(r, "update_existing", opts.updateExisting)
    ensures Dicts.Kept(r, "replace_interests", opts.replaceInterests) && Dicts.Kept(r, "send_welcome", opts.sendWelcome)
  {
    var d := SubscribeArgs(listId, email, opts);
    SubscribeArgsKept(listId, email, opts);
    Dicts.CleanDictSubset(d);
    Dicts.CleanDict(d)
  }

  lemma SubscribeArgsKept(listId: Value, email: string, opts: SubscribeOptions)
    ensures var d := SubscribeArgs(listId, email, opts);
            && Dicts.Kept(Dicts.CleanDict(d), "id", listId)
            && Dicts.Kept(Dicts.CleanDict(d), "email", EmailArg(email))
            && Dicts.Kept(Dicts.CleanDict(d), "merge_vars", opts.mergeVars)
            && Dicts.Kept(Dicts.CleanDict(d), "email_type", opts.emailType)
            && Dicts.Kept(Dicts.CleanDict(d), "double_optin", opts.doubleOptin)
            && Dicts.Kept(Dicts.CleanDict(d), "update_existing", opts.updateExisting)
            && Dicts.Kept(Dicts.CleanDict(d), "replace_interests", opts.replaceInterests)
            && Dicts.Kept(Dicts.CleanDict(d), "send_welcome", opts.sendWelcome)
  {
    var d := SubscribeArgs(listId, email, opts);
    Dicts.CleanKeeps(d, "id");
    Dicts.CleanKeeps(d, "email");
    Dicts.CleanKeeps(d, "merge_vars");
    Dicts.CleanKeeps(d, "email_type");
    Dicts.CleanKeeps(d, "double_optin");
    Dicts.CleanKeeps(d, "update_existing");
    Dicts.CleanKeeps(d, "replace_interests");
    Dicts.CleanKeeps(d, "send_welcome");
  }

  /** `double_optin=False` is left out of the body rather than sent as false. */
  lemma SubscribeDropsFalse(listId: Value, email: string, opts: SubscribeOptions)
    requires opts.doubleOptin == Bool(false)
    ensures "double_optin" !in SubscribeBody(listId, email, opts)
  {
  }

  /** The list lookup, its 'id', and a POST of `body(id)` to `path`. */
  function PostForList(c: Client, listName: string, path: string, body: Value -> Dict,
                       server: Request -> Value): (o: Outcome<Value>)
    ensures o.result.Ok? ==> && |o.sent| == 2
                             && o.sent[0].verb == POST && c.attrs.baseUrl.Some?
                             && o.sent[0].url == c.attrs.baseUrl.value + "lists/list" + Suffix(c.defaultReturnFormat, None)
                             && o.sent[1].verb == POST
                             && c.attrs.baseUrl.Some?
                             && o.sent[1].url == c.attrs.baseUrl.value + path + Suffix(c.defaultReturnFormat, None)
                             && o.result == Ok(server(o.sent[1]))
  {
    var l := GetListByName(c, listName, server);
    match l.result
    case Err(e) => Outcome(l.client, l.sent, Err(e))
    case Ok(list) =>
      match GetItem(list, "id")
      case Err(e) => Outcome(l.client, l.sent, Err(e))
      case Ok(id) =>
        var s := Post(l.client, path, Some(body(id)), None, None);
        DoUrlAndVerb(l.client, path, Some(body(id)), None, Some("POST"), None);
        var o := Send(s, server);
        Outcome(o.client, l.sent + o.sent, o.result)
  }

  /** The second request of a list-keyed call carries the client's default
      body updated with `body` of the found list's 'id': the lists call before
      it adds no keys, since all its arguments are None. */
  lemma PostForListRequests(c: Client, listName: string, path: string, body: Value -> Dict,
                            server: Request -> Value)
    ensures var o := PostForList(c, listName, path, body, server);
            o.result.Ok? ==>
              var lists := JudgeLists(server(o.sent[0]));
              && lists.Ok?
              && FindList(lists.value, listName).Ok?
              && var l := FindList(lists.value, listName).value;
                 && "id" in l.entries
                 && c.attrs.defaultBody.Some?
                 && o.sent[1].body == Some(EncodeBody(c.attrs.sendJson,
                                                      Dict(Dicts.Update(c.attrs.defaultBody.value, body(l.entries["id"])))))
  {
    var o := PostForList(c, listName, path, body, server);
    var g := GetListByName(c, listName, server);
    if o.result.Ok? {
      var content := Dicts.CleanDict(ListArgs(PyNone, PyNone, PyNone, PyNone, PyNone));
      assert content == map[];
      Dicts.UpdateIdempotent(c.attrs.defaultBody.value, content);
      assert g.client.attrs.defaultBody == c.attrs.defaultBody;
      var id := g.result.value.entries["id"];
      ParseVerbName(POST);
      var s := Post(g.client, path, Some(body(id)), None, None);
      assert s.result.value.body == Some(EncodeBody(c.attrs.sendJson, Dict(Dicts.Update(c.attrs.defaultBody.value, body(id)))));
    }
  }

  /** `subscribe_to_list(list_name, user_email, ...)`. */
  function SubscribeToList(c: Client, listName: string, email: string, opts: SubscribeOptions,
                           server: Request -> Value): (o: Outcome<Value>)
    ensures o.result.Ok? ==> && |o.sent| == 2 && o.sent[1].verb == POST
                             && c.attrs.baseUrl.Some?
                             && o.sent[1].url == c.attrs.baseUrl.value + "lists/subscribe" + Suffix(c.defaultReturnFormat, None)
  {
    PostForList(c, listName, "lists/subscribe", id => SubscribeBody(id, email, opts), server)
  }

  /** The optional keyword arguments of `unsubscribe_from_list`. */
  datatype UnsubscribeOptions = UnsubscribeOptions(deleteMember: Value, sendGoodbye: Value, sendNotify: Value)

  /** The body of `unsubscribe_from_list`: the cleaned keyword dict. */
  function UnsubscribeBody(listId: Value, email: string, opts: UnsubscribeOptions): (r: Dict)
    ensures r.Keys <= {"id", "email", "delete_member", "send_goodbye", "send_notify"}
    ensures "email" in r && r["email"] == EmailArg(email)
    ensures Dicts.Kept(r, "id", listId)
    ensures Dicts.Kept(r, "delete_member", opts.deleteMember) && Dicts.Kept(r, "send_goodbye", opts.sendGoodbye)
    ensures Dicts.Kept(r, "send_notify", opts.sendNotify)
  {
    var d := map["id" := listId, "email" := EmailArg(email),
                 "delete_member" := opts.deleteMember, "send_goodbye" := opts.sendGoodbye,
                 "send_notify" := opts.sendNotify];
    Dicts.CleanKeeps(d, "id");
    Dicts.CleanKeeps(d, "email");
    Dicts.CleanKeeps(d, "delete_member");
    Dicts.CleanKeeps(d, "send_goodbye");
    Dicts.CleanKeeps(d, "send_notify");
    Dicts.CleanDictSubset(d);
    Dicts.CleanDict(d)
  }

  /** `unsubscribe_from_list(list_name, user_email, ...)`. */
  function UnsubscribeFromList(c: Client, listName: string, email: string, opts: UnsubscribeOptions,
                               server: Request -> Value): (o: Outcome<Value>)
    ensures o.result.Ok? ==> && |o.sent| == 2 && o.sent[1].verb == POST
                             && c.attrs.baseUrl.Some?
                             && o.sent[1].url == c.attrs.baseUrl.value + "lists/unsubscribe" + Suffix(c.defaultReturnFormat, None)
  {
    PostForList(c, listName, "lists/unsubscribe", id => UnsubscribeBody(id, email, opts), server)
  }

  /** On a fresh client, a subscription first posts the lists call and then
      posts, as JSON when it can be encoded, the API key together with the
      subscribe body for the 'id' of the list found by name. */
  lemma SubscribeRequests(apikey: string, listName: string, email: string, opts: SubscribeOptions,
                          server: Request -> Value)
    ensures var c := MailchimpInit(apikey);
            var o := SubscribeToList(c, listName, email, opts, server);
            o.result.Ok? ==>
              var lists := JudgeLists(server(o.sent[0]));
              && lists.Ok?
              && FindList(lists.value, listName).Ok?
              && var l := FindList(lists.value, listName).value;
                 && "id" in l.entries
                 && o.sent[1].body == Some(EncodeBody(true, Dict(Dicts.Update(map["apikey" := Str(apikey)],
                                                                             SubscribeBody(l.entries["id"], email, opts)))))
  {
    PostForListRequests(MailchimpInit(apikey), listName, "lists/subscribe", id => SubscribeBody(id, email, opts), server);
  }

  /** On a fresh client, an unsubscription first posts the lists call and
      then posts, as JSON when it can be encoded, the API key together with
      the unsubscribe body for the 'id' of the list found by name. */
  lemma UnsubscribeRequests(apikey: string, listName: string, email: string, opts: UnsubscribeOptions,
                            server: Request -> Value)
    ensures var c := MailchimpInit(apikey);
            var o := UnsubscribeFromList(c, listName, email, opts, server);
            o.result.Ok? ==>
              var lists := JudgeLists(server(o.sent[0]));
              && lists.Ok?
              && FindList(lists.value, listName).Ok?
              && var l := FindList(lists.value, listName).value;
                 && "id" in l.entries
                 && o.sent[1].body == Some(EncodeBody(true, Dict(Dicts.Update(map["apikey" := Str(apikey)],
                                                                             UnsubscribeBody(l.entries["id"], email, opts)))))
  {
    PostForListRequests(MailchimpInit(apikey), listName, "lists/unsubscribe", id => UnsubscribeBody(id, email, opts), server);
  }
}

=== FILE: pyrate.dfy ===
/**
 The base client class `Pyrate`: construction defaults, the Basic
 authentication header, per-call request assembly (`do`), verb dispatch and
 body encoding (`do_request`), the verb shorthands, and the connection check.

 A request is not sent: `do` yields the `Request` record the transport would
 be handed, together with the client as it is afterwards (the merge of
 per-call keys happens in place on the client's default maps). Where a
 response is needed, the transport is a parameter `server` that maps a request
 to the decoded JSON value, or to `Bytes` when the body was not JSON.
 */
module Pyrate {

  import opened Values
  import Dicts
  import Utf8
  import Base64

  /** The fixed verb set `do_request` dispatches on. */
  datatype Verb = GET | POST | PUT | DELETE | OPTIONS

  function VerbName(v: Verb): string {
    match v
    case GET => "GET"
    case POST => "POST"
    case PUT => "PUT"
    case DELETE => "DELETE"
    case OPTIONS => "OPTIONS"
  }

  /** The descriptor `check_connection` reads: HTTP method (None for the
      default), target path, the key the response must hold, and the value
      that key must have when this is truthy. */
  datatype ConnectionCheck = ConnectionCheck(httpMethod: Option<string>, target: string, key: string, expected: Value)

  /** The class attributes a service subclass overrides. */
  datatype ClassAttrs = ClassAttrs(
    httpMethods: seq<string>,
    returnFormats: seq<string>,
    defaultHeaders: Option<Dict>,
    defaultBody: Option<Dict>,
    connectionCheck: Option<ConnectionCheck>,
    authType: Option<string>,
    baseUrl: Option<string>,
    sendJson: bool)

  /** The attributes of `Pyrate` itself. */
  const BaseAttrs := ClassAttrs(["GET", "POST", "PUT", "DELETE", "OPTIONS"], [], None, None, None, None, None, false)

  /** A constructed client: its class attributes and the two defaults
      `__init__` derives from them. */
  datatype Client = Client(attrs: ClassAttrs, defaultHttpMethod: string, defaultReturnFormat: string)

  /** `Pyrate.__init__`: the default verb is the first declared HTTP method
      (an empty list raises `IndexError`, which is not caught), the default
      return format the first declared format, or '' when there is none. */
  function Init(attrs: ClassAttrs): (r: Result<Client>)
    ensures r.Ok? <==> |attrs.httpMethods| > 0
    ensures r.Err? ==> r.error == IndexError
    ensures r.Ok? ==> r.value.attrs == attrs && r.value.defaultHttpMethod == attrs.httpMethods[0]
    ensures r.Ok? && |attrs.returnFormats| > 0 ==> r.value.defaultReturnFormat == attrs.returnFormats[0]
    ensures r.Ok? && |attrs.returnFormats| == 0 ==> r.value.defaultReturnFormat == ""
  {
    if |attrs.httpMethods| == 0 then Err(IndexError)
    else
      var format := if |attrs.returnFormats| > 0 then attrs.returnFormats[0] else "";
      Ok(Client(attrs, attrs.httpMethods[0], format))
  }

  /** A plain `Pyrate()` defaults to GET and to no return format. */
  lemma InitBaseDefaults()
    ensures Init(BaseAttrs).Ok?
    ensures Init(BaseAttrs).value.defaultHttpMethod == "GET"
    ensures Init(BaseAttrs).value.defaultReturnFormat == ""
  {
  }

  /** `create_basic_auth(user, password)`: "Basic " and the Base64 form of
      the UTF-8 bytes of `user:password`. The encoded part is 4 * ceil(n / 3)
      characters of the Base64 alphabet and padding, and it decodes back to
      `user:password`. */
  function CreateBasicAuth(user: string, password: string): (r: string)
    ensures |r| >= 6 && r[..6] == "Basic "
    ensures |r| - 6 == 4 * ((|Utf8.Encode(user + ":" + password)| + 2) / 3)
    ensures forall i :: 6 <= i < |r| ==> Base64.IsAlphabetChar(r[i]) || r[i] == '='
    ensures match Base64.Decode(r[6..])
            case Some(bytes) => Utf8.Decode(bytes) == Some(user + ":" + password)
            case None => false
  {
    var credentials := user + ":" + password;
    var bytes := Utf8.Encode(credentials);
    var token := Base64.Encode(bytes);
    Base64.EncodeLength(bytes);
    Base64.EncodeAlphabet(bytes);
    Base64.DecodeEncode(bytes);
    Utf8.DecodeEncode(credentials);
    var r := "Basic " + token;
    assert r[6..] == token;
    r
  }

  /** The credentials of the end-to-end example: user "u", password "p". */
  lemma BasicAuthExample()
    ensures CreateBasicAuth("u", "p") == "Basic dTpw"
  {
    CreateBasicAuthUnfold("u", "p");
    assert "u" + ":" + "p" == "u:p";
    Utf8Example();
    Base64Example();
    BasicPrefixExample();
  }

  lemma CreateBasicAuthUnfold(user: string, password: string)
    ensures CreateBasicAuth(user, password) == "Basic " + Base64.Encode(Utf8.Encode(user + ":" + password))
  {
  }

  lemma BasicPrefixExample()
    ensures "Basic " + "dTpw" == "Basic dTpw"
  {
  }

  lemma Utf8Example()
    ensures Utf8.Encode("u:p") == [117, 58, 112]
  {
    assert Utf8.Encode("p") == [112];
    assert Utf8.Encode(":p") == [58] + Utf8.Encode("p");
    assert Utf8.Encode("u:p") == [117] + Utf8.Encode(":p");
  }

  lemma Base64Example()
    ensures Base64.Encode([117, 58, 112]) == "dTpw"
  {
    Base64.EncodeGroup(117, 58, 112);
    Base64BlockExample();
  }

  lemma Base64BlockExample()
    ensures Base64.EncodeBlock(117, 58, 112) == "dTpw"
  {
    Base64Chars();
    assert 117 / 4 == 29 && (117 % 4) * 16 + 58 / 16 == 19;
    assert (58 % 16) * 4 + 112 / 64 == 41 && 112 % 64 == 48;
  }

  lemma Base64Chars()
    ensures Base64.CharOf(29) == 'd' && Base64.CharOf(19) == 'T'
    ensures Base64.CharOf(41) == 'p' && Base64.CharOf(48) == 'w'
  {
  }

  /** `str.upper` on one character, for every character whose upper-case
      form is ASCII: the ASCII letters, dotless i, long s, sharp s and the
      Latin ligatures, the last three becoming two or three letters. Any
      other character is kept as it is: its real upper-case form holds a
      non-ASCII character, and so does the kept one. */
  function UpperOf(c: char): (r: string)
    ensures 1 <= |r| <= 3
    ensures IsAscii(c) ==> r == [UpperChar(c)]
    ensures r != [c] ==> forall i :: 0 <= i < |r| ==> 'A' <= r[i] <= 'Z'
  {
    if IsAscii(c) then [UpperChar(c)]
    else if c == '\U{0131}' then "I"
    else if c == '\U{017F}' then "S"
    else if c == '\U{00DF}' then "SS"
    else if c == '\U{FB00}' then "FF"
    else if c == '\U{FB01}' then "FI"
    else if c == '\U{FB02}' then "FL"
    else if c == '\U{FB03}' then "FFI"
    else if c == '\U{FB04}' then "FFL"
    else if c == '\U{FB05}' || c == '\U{FB06}' then "ST"
    else [c]
  }

  predicate IsAscii(c: char) {
    c as int < 128
  }

  /** ASCII upper-casing of one character. */
  function UpperChar(c: char): char {
    if 'a' <= c <= 'z' then (c as int - 32) as char else c
  }

  /** `s.upper()`: the upper-case forms of the characters, in order. */
  function Upper(s: string): string
    decreases |s|
  {
    if |s| == 0 then [] else UpperOf(s[0]) + Upper(s[1..])
  }

  /** Upper-casing never shortens text, and on ASCII text it maps character
      for character. */
  lemma {:induction false} UpperAscii(s: string)
    ensures |Upper(s)| >= |s|
    ensures (forall i :: 0 <= i < |s| ==> IsAscii(s[i])) ==>
              |Upper(s)| == |s| && forall i :: 0 <= i < |s| ==> Upper(s)[i] == UpperChar(s[i])
    decreases |s|
  {
    if |s| > 0 {
      UpperAscii(s[1..]);
      assert forall i :: 1 <= i < |s| ==> s[1..][i - 1] == s[i];
    }
  }

  /** Upper-casing distributes over concatenation. */
  lemma {:induction false} UpperAppend(a: string, b: string)
    ensures Upper(a + b) == Upper(a) + Upper(b)
    decreases |a|
  {
    if |a| == 0 {
      assert a + b == b;
    } else {
      assert (a + b)[0] == a[0] && (a + b)[1..] == a[1..] + b;
      UpperAppend(a[1..], b);
    }
  }

  /** The upper-case form of a character is its own upper-case form. */
  lemma UpperOfFixed(c: char)
    ensures Upper(UpperOf(c)) == UpperOf(c)
  {
    var r := UpperOf(c);
    forall i | 0 <= i < |r|
      ensures IsAscii(r[i]) || r == [c]
    {
    }
    if r != [c] {
      assert forall i :: 0 <= i < |r| ==> 'A' <= r[i] <= 'Z';
      UpperAscii(r);
    } else {
      assert Upper([c]) == UpperOf(c) + Upper([]);
    }
  }

  /** Upper-casing twice is upper-casing once. */
  lemma {:induction false} UpperIdempotent(s: string)
    ensures Upper(Upper(s)) == Upper(s)
    decreases |s|
  {
    if |s| > 0 {
      UpperAppend(UpperOf(s[0]), Upper(s[1..]));
      UpperOfFixed(s[0]);
      UpperIdempotent(s[1..]);
    }
  }

  /** The verb a method name names, matched case-insensitively against the
      fixed set; anything else raises "Invalid request method". */
  function ParseVerb(httpMethod: string): (r: Result<Verb>)
    ensures r.Ok? ==> VerbName(r.value) == Upper(httpMethod)
    ensures r.Err? ==> r.error == InvalidRequestMethod
  {
    var u := Upper(httpMethod);
    if u == "GET" then Ok(GET)
    else if u == "POST" then Ok(POST)
    else if u == "PUT" then Ok(PUT)
    else if u == "DELETE" then Ok(DELETE)
    else if u == "OPTIONS" then Ok(OPTIONS)
    else Err(InvalidRequestMethod)
  }

  /** A method name is accepted exactly when its upper-case form is one of
      the five verb names, and names that differ only in case agree. */
  lemma ParseVerbAccepts(httpMethod: string)
    ensures ParseVerb(httpMethod).Ok? <==> exists v: Verb :: VerbName(v) == Upper(httpMethod)
    ensures ParseVerb(httpMethod) == ParseVerb(Upper(httpMethod))
  {
    UpperIdempotent(httpMethod);
    if exists v: Verb :: VerbName(v) == Upper(httpMethod) {
      var v: Verb :| VerbName(v) == Upper(httpMethod);
      match v
      case GET =>
      case POST =>
      case PUT =>
      case DELETE =>
      case OPTIONS =>
    }
  }

  /** Every verb's name, in upper or lower case, parses back to that verb. */
  lemma ParseVerbName(v: Verb)
    ensures ParseVerb(VerbName(v)) == Ok(v)
  {
    var name := VerbName(v);
    assert forall i :: 0 <= i < |name| ==> 'A' <= name[i] <= 'Z';
    UpperAscii(name);
    assert Upper(name) == name;
    VerbNameUnique(v);
  }

  /** The lower-case spelling of every verb parses to that verb too. */
  lemma ParseVerbLower(v: Verb)
    ensures ParseVerb(Lower(VerbName(v))) == Ok(v)
  {
    var name := VerbName(v);
    var lower := Lower(name);
    assert forall i :: 0 <= i < |name| ==> 'A' <= name[i] <= 'Z';
    assert forall i :: 0 <= i < |lower| ==> IsAscii(lower[i]);
    UpperAscii(lower);
    assert Upper(lower) == name;
    VerbNameUnique(v);
  }

  /** `ParseVerb` on a verb's exact name picks that verb. */
  lemma VerbNameUnique(v: Verb)
    ensures var u := VerbName(v);
            && (u == "GET" <==> v == GET) && (u == "POST" <==> v == POST)
            && (u == "PUT" <==> v == PUT) && (u == "DELETE" <==> v == DELETE)
            && (u == "OPTIONS" <==> v == OPTIONS)
  {
    match v
    case GET =>
    case POST =>
    case PUT => assert "PUT" != "GET";
    case DELETE =>
    case OPTIONS =>
  }

  /** ASCII lower-casing. */
  function Lower(s: string): (r: string)
    ensures |r| == |s|
  {
    seq(|s|, i requires 0 <= i < |s| => if 'A' <= s[i] <= 'Z' then (s[i] as int + 32) as char else s[i])
  }

  /** Non-ASCII spellings whose upper-case form is a verb name are accepted
      as that verb: long s, the "st" ligature and dotless i. */
  lemma ParseVerbUnicode()
    ensures ParseVerb("po\U{017F}t") == Ok(POST)
    ensures ParseVerb("po\U{FB06}") == Ok(POST)
    ensures ParseVerb("opt\U{0131}ons") == Ok(OPTIONS)
  {
    UpperLongS();
    UpperLigature();
    UpperDotlessI();
    VerbNameUnique(POST);
    VerbNameUnique(OPTIONS);
  }

  lemma UpperLongS()
    ensures Upper("po\U{017F}t") == "POST"
  {
    assert Upper("t") == "T";
    assert Upper("\U{017F}t") == "S" + Upper("t");
    assert Upper("o\U{017F}t") == "O" + Upper("\U{017F}t");
  }

  lemma UpperLigature()
    ensures Upper("po\U{FB06}") == "POST"
  {
    assert Upper("\U{FB06}") == "ST";
    assert Upper("o\U{FB06}") == "O" + Upper("\U{FB06}");
  }

  lemma UpperDotlessI()
    ensures Upper("opt\U{0131}ons") == "OPTIONS"
  {
    UpperAscii("ons");
    assert Upper("ons") == "ONS";
    assert Upper("\U{0131}ons") == "I" + Upper("ons");
    assert Upper("t\U{0131}ons") == "T" + Upper("\U{0131}ons");
    assert Upper("pt\U{0131}ons") == "P" + Upper("t\U{0131}ons");
  }

  /** A verb outside the set, such as PATCH, is refused. */
  lemma ParseVerbRejectsPatch()
    ensures ParseVerb("patch") == Err(InvalidRequestMethod)
  {
    assert Upper("patch") == "PATCH";
  }

  /** What the transport is handed as the body: `Json(v)` stands for the text
      `json.dumps(v)`, `Form(v)` for the value itself. */
  datatype Payload = Json(doc: Value) | Form(data: Value)

  /** A request ready for the transport: GET carries no body. */
  datatype Request = Request(verb: Verb, url: string, headers: Option<Dict>, body: Option<Payload>)

  /** The body as a Python value: the merged dict, or None. */
  function BodyValue(body: Option<Dict>): Value {
    match body
    case Some(d) => Dict(d)
    case None => PyNone
  }

  /** The body encoding step of `do_request`: with `send_json` the body is
      replaced by its JSON text; a `TypeError` from `json.dumps` leaves it
      unchanged. Its uncaught ValueError on an int past the interpreter's
      digit limit is not modelled. */
  function EncodeBody(sendJson: bool, body: Value): (p: Payload)
    ensures p.Json? <==> sendJson && Serializable(body)
    ensures p.Json? ==> p.doc == body
    ensures p.Form? ==> p.data == body
  {
    if sendJson && Serializable(body) then Json(body) else Form(body)
  }

  /** `do_request`: an OAuth1 client fails in `get_oauth`, which subclasses
      must provide; the body is encoded; the verb is dispatched, GET without
      a body and the other four with it. An unknown verb raises before any
      request exists. */
  function DoRequest(c: Client, httpMethod: string, url: string, headers: Option<Dict>, body: Option<Dict>): (r: Result<Request>)
    ensures c.attrs.authType == Some("OAUTH1") ==> r == Err(NotImplemented)
    ensures c.attrs.authType != Some("OAUTH1") ==> (r.Ok? <==> ParseVerb(httpMethod).Ok?)
    ensures r.Err? && c.attrs.authType != Some("OAUTH1") ==> r.error == InvalidRequestMethod
    ensures r.Ok? ==> && ParseVerb(httpMethod) == Ok(r.value.verb)
                      && r.value.url == url
                      && r.value.headers == headers
    ensures r.Ok? ==> (r.value.body.None? <==> r.value.verb == GET)
    ensures r.Ok? && r.value.verb != GET ==> r.value.body == Some(EncodeBody(c.attrs.sendJson, BodyValue(body)))
  {
    if c.attrs.authType == Some("OAUTH1") then Err(NotImplemented)
    else
      var payload := EncodeBody(c.attrs.sendJson, BodyValue(body));
      match ParseVerb(httpMethod)
      case Err(e) => Err(e)
      case Ok(v) => Ok(Request(v, url, headers, if v == GET then None else Some(payload)))
  }

  /** The outcome of `do`: the client afterwards, and the request or the
      exception. */
  datatype Step = Step(client: Client, result: Result<Request>)

  /** The in-place `update` of a default map with per-call keys: no keys
      leave the default as it is; keys on a None default raise
      `AttributeError`. */
  function MergeInto(base: Option<Dict>, override: Option<Dict>): (r: Result<Option<Dict>>)
    ensures override.None? ==> r == Ok(base)
    ensures override.Some? && base.None? ==> r == Err(AttributeError)
    ensures override.Some? && base.Some? ==> r.Ok? && r.value.Some?
    ensures r.Ok? && override.Some? ==>
              && r.value.value.Keys == base.value.Keys + override.value.Keys
              && (forall k :: k in override.value ==> r.value.value[k] == override.value[k])
              && (forall k :: k in base.value && k !in override.value ==> r.value.value[k] == base.value[k])
  {
    match override
    case None => Ok(base)
    case Some(o) =>
      match base
      case None => Err(AttributeError)
      case Some(d) => Ok(Some(Dicts.Update(d, o)))
  }

  /** The suffix `do` appends: an explicit return format verbatim, otherwise
      "." and the default format, or nothing when the default is empty. */
  function Suffix(defaultFormat: string, returnFormat: Option<string>): (r: string)
    ensures returnFormat.Some? ==> r == returnFormat.value
    ensures returnFormat.None? && defaultFormat != "" ==> r == "." + defaultFormat
    ensures returnFormat.None? && defaultFormat == "" ==> r == ""
  {
    match returnFormat
    case Some(f) => f
    case None => if defaultFormat != "" then "." + defaultFormat else ""
  }

  /** `do(method, content, headers, http_method, return_format)`. Per-call
      content on a None default body raises `AttributeError` before anything
      else; a missing base URL raises `TypeError` when the URL is built. Of
      the client only the two default maps change, and without per-call maps
      nothing does. */
  function Do(c: Client, path: string, content: Option<Dict>, headers: Option<Dict>,
              httpMethod: Option<string>, returnFormat: Option<string>): (s: Step)
    ensures content.Some? && c.attrs.defaultBody.None? ==> s == Step(c, Err(AttributeError))
    ensures c.attrs.baseUrl.None? ==> s.result.Err?
    ensures s.client == c.(attrs := c.attrs.(defaultBody := s.client.attrs.defaultBody,
                                             defaultHeaders := s.client.attrs.defaultHeaders))
    ensures content.None? && headers.None? ==> s.client == c
    ensures s.result.Ok? ==> c.attrs.baseUrl.Some?
                             && s.result.value.url == c.attrs.baseUrl.value + path + Suffix(c.defaultReturnFormat, returnFormat)
  {
    match MergeInto(c.attrs.defaultBody, content)
    case Err(e) => Step(c, Err(e))
    case Ok(body) =>
      var c1 := c.(attrs := c.attrs.(defaultBody := body));
      match MergeInto(c1.attrs.defaultHeaders, headers)
      case Err(e) => Step(c1, Err(e))
      case Ok(hdrs) =>
        var c2 := c1.(attrs := c1.attrs.(defaultHeaders := hdrs));
        var verb := match httpMethod case Some(m) => m case None => c.defaultHttpMethod;
        var suffix := Suffix(c.defaultReturnFormat, returnFormat);
        match c.attrs.baseUrl
        case None => Step(c2, Err(TypeError))
        case Some(base) => Step(c2, DoRequest(c2, verb, base + path + suffix, hdrs, body))
  }

  /** The URL of a request `do` builds is the base URL, the method path and
      the suffix; the verb is the given one or the client's default. */
  lemma DoUrlAndVerb(c: Client, path: string, content: Option<Dict>, headers: Option<Dict>,
                     httpMethod: Option<string>, returnFormat: Option<string>)
    ensures var s := Do(c, path, content, headers, httpMethod, returnFormat);
            s.result.Ok? ==>
              && c.attrs.baseUrl.Some?
              && s.result.value.url == c.attrs.baseUrl.value + path + Suffix(c.defaultReturnFormat, returnFormat)
              && (returnFormat.None? && c.defaultReturnFormat == "" ==> s.result.value.url == c.attrs.baseUrl.value + path)
              && ParseVerb(if httpMethod.Some? then httpMethod.value else c.defaultHttpMethod) == Ok(s.result.value.verb)
  {
  }

  /** The per-call keys are merged into the client's own default maps: after
      the call the defaults hold every per-call key with its per-call value and
      every other default key unchanged, and the request carries exactly the
      merged maps. Nothing else about the client changes. */
  lemma DoMergesInPlace(c: Client, path: string, content: Dict, headers: Dict,
                        httpMethod: Option<string>, returnFormat: Option<string>)
    requires c.attrs.defaultBody.Some? && c.attrs.defaultHeaders.Some?
    ensures var s := Do(c, path, Some(content), Some(headers), httpMethod, returnFormat);
            var body, hdrs := s.client.attrs.defaultBody, s.client.attrs.defaultHeaders;
            && body == Some(Dicts.Update(c.attrs.defaultBody.value, content))
            && hdrs == Some(Dicts.Update(c.attrs.defaultHeaders.value, headers))
            && s.client == c.(attrs := c.attrs.(defaultBody := body, defaultHeaders := hdrs))
            && (s.result.Ok? ==> s.result.value.headers == hdrs)
            && (s.result.Ok? && s.result.value.verb != GET ==>
                  s.result.value.body == Some(EncodeBody(c.attrs.sendJson, Dict(body.value))))
  {
  }

  /** An unknown verb is refused and no request is built; the error is the
      invalid-method one whenever the client is otherwise able to send. */
  lemma DoRejectsUnknownVerb(c: Client, path: string, content: Option<Dict>, headers: Option<Dict>,
                             httpMethod: string, returnFormat: Option<string>)
    requires ParseVerb(httpMethod).Err?
    ensures Do(c, path, content, headers, Some(httpMethod), returnFormat).result.Err?
    ensures && c.attrs.baseUrl.Some? && c.attrs.authType != Some("OAUTH1")
            && (content.None? || c.attrs.defaultBody.Some?) && (headers.None? || c.attrs.defaultHeaders.Some?) ==>
              Do(c, path, content, headers, Some(httpMethod), returnFormat).result == Err(InvalidRequestMethod)
  {
  }

  /** `get(method, content, headers, return_format)`. */
  function Get(c: Client, path: string, content: Option<Dict>, headers: Option<Dict>, returnFormat: Option<string>): (s: Step)
    ensures s.result.Ok? ==> s.result.value.verb == GET && s.result.value.body.None?
  {
    ParseVerbName(GET);
    Do(c, path, content, headers, Some("GET"), returnFormat)
  }

  /** `post(method, content, headers, return_format)`. */
  function Post(c: Client, path: string, content: Option<Dict>, headers: Option<Dict>, returnFormat: Option<string>): (s: Step)
    ensures s.result.Ok? ==> s.result.value.verb == POST && s.result.value.body.Some?
  {
    ParseVerbName(POST);
    Do(c, path, content, headers, Some("POST"), returnFormat)
  }

  /** `put(method, content, headers, return_format)`. */
  function Put(c: Client, path: string, content: Option<Dict>, headers: Option<Dict>, returnFormat: Option<string>): (s: Step)
    ensures s.result.Ok? ==> s.result.value.verb == PUT && s.result.value.body.Some?
  {
    ParseVerbName(PUT);
    Do(c, path, content, headers, Some("PUT"), returnFormat)
  }

  /** `delete(method, content, headers, return_format)`. */
  function Delete(c: Client, path: string, content: Option<Dict>, headers: Option<Dict>, returnFormat: Option<string>): (s: Step)
    ensures s.result.Ok? ==> s.result.value.verb == DELETE && s.result.value.body.Some?
  {
    ParseVerbName(DELETE);
    Do(c, path, content, headers, Some("DELETE"), returnFormat)
  }

  /** `options(method, content, headers, return_format)`. */
  function Options(c: Client, path: string, content: Option<Dict>, headers: Option<Dict>, returnFormat: Option<string>): (s: Step)
    ensures s.result.Ok? ==> s.result.value.verb == OPTIONS && s.result.value.body.Some?
  {
    ParseVerbName(OPTIONS);
    Do(c, path, content, headers, Some("OPTIONS"), returnFormat)
  }

  /** Two calls of `do` that differ only in an accepted verb leave the
      client in the same state, succeed together, and build the same request
      up to the verb and, for GET, the body. */
  lemma DoVerbOnly(c: Client, path: string, content: Option<Dict>, headers: Option<Dict>, returnFormat: Option<string>,
                   m1: string, m2: string)
    requires ParseVerb(m1).Ok? && ParseVerb(m2).Ok?
    ensures var s1, s2 := Do(c, path, content, headers, Some(m1), returnFormat), Do(c, path, content, headers, Some(m2), returnFormat);
            && s1.client == s2.client
            && (s1.result.Ok? <==> s2.result.Ok?)
            && (s1.result.Ok? && s1.result.value.verb != GET && s2.result.value.verb != GET ==>
                  s2.result.value == s1.result.value.(verb := s2.result.value.verb))
            && (s1.result.Ok? && s1.result.value.verb != GET && s2.result.value.verb == GET ==>
                  s2.result.value == s1.result.value.(verb := GET, body := None))
  {
  }

  /** The shorthand method for a verb: `get`, `post`, `put`, `delete` or `options`. */
  function Proxy(v: Verb, c: Client, path: string, content: Option<Dict>, headers: Option<Dict>, returnFormat: Option<string>): Step {
    match v
    case GET => Get(c, path, content, headers, returnFormat)
    case POST => Post(c, path, content, headers, returnFormat)
    case PUT => Put(c, path, content, headers, returnFormat)
    case DELETE => Delete(c, path, content, headers, returnFormat)
    case OPTIONS => Options(c, path, content, headers, returnFormat)
  }

  /** The shorthands forward everything but the verb: each leaves the client
      in the same state as `post`, succeeds together with it, and builds the
      same request up to the verb (and, for GET, without the body). */
  lemma ShorthandsAgree(c: Client, path: string, content: Option<Dict>, headers: Option<Dict>, returnFormat: Option<string>, v: Verb)
    ensures var po, x := Post(c, path, content, headers, returnFormat), Proxy(v, c, path, content, headers, returnFormat);
            && x.client == po.client
            && (x.result.Ok? <==> po.result.Ok?)
            && (po.result.Ok? && v != GET ==> x.result.value == po.result.value.(verb := v))
            && (po.result.Ok? && v == GET ==> x.result.value == po.result.value.(verb := GET, body := None))
  {
    ParseVerbName(POST);
    ParseVerbName(v);
    ProxyIsDo(POST, c, path, content, headers, returnFormat);
    ProxyIsDo(v, c, path, content, headers, returnFormat);
    DoVerbOnly(c, path, content, headers, returnFormat, VerbName(POST), VerbName(v));
  }

  lemma ProxyIsDo(v: Verb, c: Client, path: string, content: Option<Dict>, headers: Option<Dict>, returnFormat: Option<string>)
    ensures Proxy(v, c, path, content, headers, returnFormat) == Do(c, path, content, headers, Some(VerbName(v)), returnFormat)
  {
  }

  /** The judgement `check_connection` passes on a response: it must be
      truthy and hold the key, and when the expected value is truthy the key's
      value must equal it. Success is `True`; failure raises an error carrying
      the response, unless `in` or `[]` raise first. */
  function JudgeConnection(response: Value, key: string, expected: Value): (r: Result<bool>)
    ensures r.Ok? ==> r.value
    ensures r.Ok? ==> Truthy(response) && Contains(response, key) == Ok(true)
    ensures response.Dict? ==>
              (r == Ok(true) <==> Truthy(response) && key in response.entries
                                  && (!Truthy(expected) || Eq(response.entries[key], expected)))
    ensures response.Dict? && r.Err? ==> r.error == CheckConnectionFailed(response)
    ensures !Truthy(response) ==> r == Err(CheckConnectionFailed(response))
    ensures response.List? || response.Str? ==>
              (r == Ok(true) <==> Truthy(response) && Contains(response, key) == Ok(true) && !Truthy(expected))
    ensures (response.List? || response.Str?) && Truthy(response) && Contains(response, key) == Ok(true) && Truthy(expected) ==>
              r == Err(TypeError)
    ensures Truthy(response) && !(response.Dict? || response.List? || response.Str?) ==> r == Err(TypeError)
    ensures r.Err? && r.error != TypeError ==> r.error == CheckConnectionFailed(response)
  {
    if !Truthy(response) then Err(CheckConnectionFailed(response))
    else match Contains(response, key)
      case Err(e) => Err(e)
      case Ok(present) =>
        if !present then Err(CheckConnectionFailed(response))
        else if !Truthy(expected) then Ok(true)
        else match GetItem(response, key)
          case Err(e) => Err(e)
          case Ok(v) => if Eq(v, expected) then Ok(true) else Err(CheckConnectionFailed(response))
  }

  /** What a call that reaches the transport leaves behind: the client
      afterwards, the requests handed to the transport in order, and the
      result or the exception. */
  datatype Outcome<+T> = Outcome(client: Client, sent: seq<Request>, result: Result<T>)

  /** A `do` step carried through the transport: a built request is sent and
      its decoded response is the result. */
  function Send(s: Step, server: Request -> Value): (o: Outcome<Value>)
    ensures o.client == s.client
    ensures s.result.Ok? ==> o.sent == [s.result.value] && o.result == Ok(server(s.result.value))
    ensures s.result.Err? ==> o.sent == [] && o.result == Err(s.result.error)
  {
    match s.result
    case Ok(req) => Outcome(s.client, [req], Ok(server(req)))
    case Err(e) => Outcome(s.client, [], Err(e))
  }

  /** `check_connection()`: one `do` call on the configured target without
      content, judged by `JudgeConnection`: the check passes exactly when the
      judgement of the one response does, and an error of `do` ends it before
      anything is sent. A client without the descriptor fails indexing None. */
  function CheckConnection(c: Client, server: Request -> Value): (o: Outcome<bool>)
    ensures c.attrs.connectionCheck.None? ==> o.result == Err(TypeError) && o.sent == []
    ensures o.client == c
    ensures o.result.Ok? ==> o.result.value && |o.sent| == 1
    ensures o.result.Ok? ==>
              var cc := c.attrs.connectionCheck.value;
              JudgeConnection(server(o.sent[0]), cc.key, cc.expected) == Ok(true)
    ensures c.attrs.connectionCheck.Some? ==>
              var cc := c.attrs.connectionCheck.value;
              var s := Do(c, cc.target, None, None, cc.httpMethod, None);
              && (s.result.Err? ==> o.sent == [] && o.result == Err(s.result.error))
              && (s.result.Ok? ==>
                    && o.sent == [s.result.value]
                    && o.result == JudgeConnection(server(s.result.value), cc.key, cc.expected)
                    && c.attrs.baseUrl.Some?
                    && s.result.value.url == c.attrs.baseUrl.value + cc.target + Suffix(c.defaultReturnFormat, None))
  {
    match c.attrs.connectionCheck
    case None => Outcome(c, [], Err(TypeError))
    case Some(cc) =>
      var o := Send(Do(c, cc.target, None, None, cc.httpMethod, None), server);
      match o.result
      case Err(e) => Outcome(o.client, o.sent, Err(e))
      case Ok(response) => Outcome(o.client, o.sent, JudgeConnection(response, cc.key, cc.expected))
  }

  /** The end-to-end example: a Basic-auth client on https://api.example.com/
      calling `do("ping")` sends GET https://api.example.com/ping with the
      header `Authorization: Basic dTpw`. */
  lemma PingExample()
    ensures var attrs := BaseAttrs.(baseUrl := Some("https://api.example.com/"),
                                    defaultHeaders := Some(map["Authorization" := Str(CreateBasicAuth("u", "p"))]));
            var s := Do(Init(attrs).value, "ping", None, None, None, None);
            && s.result.Ok?
            && s.result.value.verb == GET
            && s.result.value.url == "https://api.example.com/ping"
            && s.result.value.headers == Some(map["Authorization" := Str("Basic dTpw")])
  {
    BasicAuthExample();
    ParseVerbName(GET);
  }

  /** The end-to-end example: a client whose default body is
      {"apikey": "abc"} and which sends JSON posts that body as JSON. */
  lemma PostJsonExample(base: string)
    ensures var attrs := BaseAttrs.(baseUrl := Some(base), defaultBody := Some(map["apikey" := Str("abc")]), sendJson := true);
            var s := Post(Init(attrs).value, "helper/ping", None, None, None);
            && s.result.Ok?
            && s.result.value.url == base + "helper/ping"
            && s.result.value.body == Some(Json(Dict(map["apikey" := Str("abc")])))
  {
    ParseVerbName(POST);
    var d := map["apikey" := Str("abc")];
    assert Serializable(Dict(d)) by {
      assert forall k :: k in d ==> d[k] == Str("abc");
    }
  }
}

=== FILE: query.dfy ===
/**
 `append_qs` from the utilities module, over the parts of Python's
 `urllib.parse` it relies on: `urlsplit`/`geturl` for the query and
 fragment, `parse_qsl` with its default `keep_blank_values=False`, and
 `urlencode` of a list of pairs.

 Percent-decoding in `parse_qsl` and percent-encoding (`quote_plus`) in
 `urlencode` are both taken as the identity: keys and values are kept in
 their encoded form on both sides.
 */
module Query {

  import opened Values

  type Pair = (string, string)

  /** The position of the first `c` in `s`, or `|s|` when there is none. */
  function Find(s: string, c: char): (i: nat)
    ensures i <= |s|
    ensures i < |s| ==> s[i] == c
    ensures forall j :: 0 <= j < i ==> s[j] != c
    ensures i == |s| <==> c !in s
  {
    if |s| == 0 then 0
    else if s[0] == c then 0
    else 1 + Find(s[1..], c)
  }

  /** `s.split(sep)`. */
  function SplitOn(s: string, sep: char): (parts: seq<string>)
    ensures |parts| >= 1
    ensures forall i :: 0 <= i < |parts| ==> sep !in parts[i]
    decreases |s|
  {
    var i := Find(s, sep);
    if i == |s| then [s] else [s[..i]] + SplitOn(s[i + 1..], sep)
  }

  /** `sep.join(parts)`. */
  function Join(parts: seq<string>, sep: char): string
    requires |parts| >= 1
    decreases |parts|
  {
    if |parts| == 1 then parts[0] else parts[0] + [sep] + Join(parts[1..], sep)
  }

  /** Splitting undoes joining when no part holds the separator. */
  lemma {:induction false} SplitOnJoin(parts: seq<string>, sep: char)
    requires |parts| >= 1
    requires forall i :: 0 <= i < |parts| ==> sep !in parts[i]
    ensures SplitOn(Join(parts, sep), sep) == parts
    decreases |parts|
  {
    if |parts| == 1 {
      assert Join(parts, sep) == parts[0];
      assert sep !in parts[0];
    } else {
      var rest := Join(parts[1..], sep);
      assert Join(parts, sep) == parts[0] + [sep] + rest;
      SplitFirst(parts[0], sep, rest);
      assert forall i :: 0 <= i < |parts| - 1 ==> parts[1..][i] == parts[i + 1];
      SplitOnJoin(parts[1..], sep);
      assert [parts[0]] + parts[1..] == parts;
    }
  }

  /** Splitting at a separator after a part without one yields that part first. */
  lemma SplitFirst(a: string, sep: char, b: string)
    requires sep !in a
    ensures SplitOn(a + [sep] + b, sep) == [a] + SplitOn(b, sep)
  {
    var s := a + [sep] + b;
    FindAfter(a, sep, b);
    assert s[..|a|] == a;
    assert s[|a| + 1..] == b;
  }

  lemma FindAfter(a: string, c: char, b: string)
    requires c !in a
    ensures Find(a + [c] + b, c) == |a|
  {
    var s := a + [c] + b;
    assert s[|a|] == c;
    assert forall j :: 0 <= j < |a| ==> s[j] == a[j];
  }

  /** The parts of a URL that `append_qs` tells apart: everything before the
      query, the query, and the fragment. */
  datatype Url = Url(head: string, query: string, fragment: string)

  /** `s` split at the first `c`: what comes before it, and what follows it
      (empty when there is no `c`). */
  function Cut(s: string, c: char): (r: (string, string))
    ensures c !in r.0
    ensures c !in s ==> r == (s, "")
  {
    var i := Find(s, c);
    if i == |s| then (s, "") else (s[..i], s[i + 1..])
  }

  lemma CutAfter(a: string, c: char, b: string)
    requires c !in a
    ensures Cut(a + [c] + b, c) == (a, b)
  {
    FindAfter(a, c, b);
    var s := a + [c] + b;
    assert s[..|a|] == a;
    assert s[|a| + 1..] == b;
  }

  /** `urlsplit(url)`: the fragment is what follows the first '#', the query
      what follows the first '?' before that. Its ValueError on a malformed
      network location is not modelled. */
  function Split(url: string): (u: Url)
    ensures '?' !in u.head && '#' !in u.head && '#' !in u.query
  {
    var (rest, fragment) := Cut(url, '#');
    var (head, query) := Cut(rest, '?');
    NotInSlices(rest, '#');
    Url(head, query, fragment)
  }

  /** A character missing from `s` is missing from every slice of it. */
  lemma NotInSlices(s: string, c: char)
    requires c !in s
    ensures forall i, j :: 0 <= i <= j <= |s| ==> c !in s[i..j]
    ensures forall i :: 0 <= i <= |s| ==> c !in s[i..] && c !in s[..i]
  {
  }

  /** `geturl()`: the '?' and '#' markers are written only before a
      non-empty query or fragment. */
  function Unsplit(u: Url): (r: string)
    ensures |r| == |u.head| + (if u.query != "" then 1 + |u.query| else 0)
                            + (if u.fragment != "" then 1 + |u.fragment| else 0)
    ensures r[..|u.head|] == u.head
    ensures u.query != "" ==> r[|u.head|] == '?' && r[|u.head| + 1..|u.head| + 1 + |u.query|] == u.query
    ensures u.fragment != "" ==> r[|r| - |u.fragment| - 1] == '#' && r[|r| - |u.fragment|..] == u.fragment
  {
    u.head + (if u.query != "" then "?" + u.query else "")
           + (if u.fragment != "" then "#" + u.fragment else "")
  }

  /** A URL put together from well-formed parts splits back into them. */
  lemma SplitUnsplit(u: Url)
    requires '?' !in u.head && '#' !in u.head && '#' !in u.query
    ensures Split(Unsplit(u)) == u
  {
    var rest := u.head + (if u.query != "" then "?" + u.query else "");
    var url := Unsplit(u);
    assert Cut(url, '#') == (rest, u.fragment) by {
      assert '#' !in rest;
      if u.fragment != "" {
        assert url == rest + ['#'] + u.fragment;
        CutAfter(rest, '#', u.fragment);
      } else {
        assert url == rest;
      }
    }
    assert Cut(rest, '?') == (u.head, u.query) by {
      if u.query != "" {
        assert rest == u.head + ['?'] + u.query;
        CutAfter(u.head, '?', u.query);
      } else {
        assert rest == u.head;
      }
    }
  }

  /** One `name=value` field of a query; `None` when `parse_qsl` skips it:
      an empty field, a field without '=', or one whose value is blank. */
  function ParseField(field: string): (r: Option<Pair>)
    ensures r.Some? ==> r.value.1 != "" && '=' !in r.value.0
  {
    var i := Find(field, '=');
    if i == |field| || i + 1 == |field| then None
    else Some((field[..i], field[i + 1..]))
  }

  function ParseFields(fields: seq<string>): seq<Pair>
    decreases |fields|
  {
    if |fields| == 0 then []
    else match ParseField(fields[0])
      case None => ParseFields(fields[1..])
      case Some(p) => [p] + ParseFields(fields[1..])
  }

  /** `parse_qsl(query)`: the pairs of the '&'-separated fields, in order,
      leaving out the fields with a blank value. */
  function ParseQsl(query: string): (r: seq<Pair>)
    ensures forall i :: 0 <= i < |r| ==> Readable(r[i])
    ensures query == "" ==> r == []
  {
    var fields := SplitOn(query, '&');
    ParsedReadable(fields);
    assert query == "" ==> ParseFields(fields) == [] by {
      if query == "" {
        assert fields == [""];
        assert ParseField("") == None;
        assert fields[1..] == [];
      }
    }
    ParseFields(fields)
  }

  function EncodePair(p: Pair): string {
    p.0 + "=" + p.1
  }

  function EncodePairs(ps: seq<Pair>): seq<string>
    ensures |EncodePairs(ps)| == |ps|
    ensures forall i :: 0 <= i < |ps| ==> EncodePairs(ps)[i] == EncodePair(ps[i])
  {
    if |ps| == 0 then [] else [EncodePair(ps[0])] + EncodePairs(ps[1..])
  }

  /** `urlencode(pairs)`: `name=value` fields joined by '&', in order. */
  function Urlencode(ps: seq<Pair>): (r: string)
    ensures r == "" <==> ps == []
    ensures |ps| > 0 && (forall i :: 0 <= i < |ps| ==> '&' !in ps[i].0 && '&' !in ps[i].1) ==>
              SplitOn(r, '&') == EncodePairs(ps)
  {
    if |ps| == 0 then ""
    else
      var fields := EncodePairs(ps);
      var r := Join(fields, '&');
      assert |r| >= |fields[0]| > 0;
      assert (forall i :: 0 <= i < |ps| ==> '&' !in ps[i].0 && '&' !in ps[i].1) ==> SplitOn(r, '&') == fields by {
        if forall i :: 0 <= i < |ps| ==> '&' !in ps[i].0 && '&' !in ps[i].1 {
          forall i | 0 <= i < |fields|
            ensures '&' !in fields[i]
          {
            assert fields[i] == ps[i].0 + "=" + ps[i].1;
          }
          SplitOnJoin(fields, '&');
        }
      }
      r
  }

  /** A pair `parse_qsl` reads back as it is: the name holds neither '&' nor
      '=', the value no '&', and the value is not blank. */
  predicate Readable(p: Pair) {
    '&' !in p.0 && '=' !in p.0 && '&' !in p.1 && p.1 != ""
  }

  lemma ParseEncodedField(p: Pair)
    requires Readable(p)
    ensures ParseField(EncodePair(p)) == Some(p)
  {
    FindAfter(p.0, '=', p.1);
    var f := EncodePair(p);
    assert f[..|p.0|] == p.0 && f[|p.0| + 1..] == p.1;
  }

  lemma {:induction false} ParseEncodedFields(ps: seq<Pair>)
    requires forall i :: 0 <= i < |ps| ==> Readable(ps[i])
    ensures ParseFields(EncodePairs(ps)) == ps
    decreases |ps|
  {
    if |ps| > 0 {
      ParseEncodedField(ps[0]);
      assert EncodePairs(ps)[1..] == EncodePairs(ps[1..]);
      ParseEncodedFields(ps[1..]);
      assert [ps[0]] + ps[1..] == ps;
    }
  }

  /** `parse_qsl(urlencode(ps)) == ps` for readable pairs. */
  lemma ParseUrlencode(ps: seq<Pair>)
    requires forall i :: 0 <= i < |ps| ==> Readable(ps[i])
    ensures ParseQsl(Urlencode(ps)) == ps
  {
    if |ps| > 0 {
      ParseEncodedFields(ps);
    }
  }

  /** A character missing from a string is missing from each part of its split. */
  lemma {:induction false} SplitOnAvoids(s: string, sep: char, c: char)
    requires c !in s
    ensures forall i :: 0 <= i < |SplitOn(s, sep)| ==> c !in SplitOn(s, sep)[i]
    decreases |s|
  {
    var i := Find(s, sep);
    NotInSlices(s, c);
    if i < |s| {
      SplitOnAvoids(s[i + 1..], sep, c);
    }
  }

  /** A character missing from every field is missing from every parsed pair. */
  lemma {:induction false} ParsedAvoids(fields: seq<string>, c: char)
    requires forall i :: 0 <= i < |fields| ==> c !in fields[i]
    ensures forall i :: 0 <= i < |ParseFields(fields)| ==>
              c !in ParseFields(fields)[i].0 && c !in ParseFields(fields)[i].1
    decreases |fields|
  {
    if |fields| > 0 {
      ParsedAvoids(fields[1..], c);
      NotInSlices(fields[0], c);
    }
  }

  /** Every pair `parse_qsl` produces is readable back. */
  lemma {:induction false} ParsedReadable(fields: seq<string>)
    requires forall i :: 0 <= i < |fields| ==> '&' !in fields[i]
    ensures forall i :: 0 <= i < |ParseFields(fields)| ==> Readable(ParseFields(fields)[i])
    decreases |fields|
  {
    if |fields| > 0 {
      ParsedReadable(fields[1..]);
      var f := fields[0];
      var i := Find(f, '=');
      NotInSlices(f, '&');
    }
  }

  /** The modules the `urllib` name resolves to through `six.moves`: a
      package of submodules with no function of its own. */
  const SixMovesUrllib: set<string> := {"parse", "error", "request", "response", "robotparser"}

  /** Attribute lookup on `six.moves.urllib`. */
  function UrllibAttribute(name: string): (r: Result<string>)
    ensures r.Ok? <==> name in SixMovesUrllib
    ensures r.Err? ==> r.error == AttributeError
  {
    if name in SixMovesUrllib then Ok(name) else Err(AttributeError)
  }

  /** `append_qs(target, key, value)` as written: the pairs are parsed and
      extended, then `urllib.urlencode` is looked up on `six.moves.urllib`,
      which has no such attribute. `Split` is total, so a target `urlsplit`
      refuses with ValueError is not modelled. */
  function AppendQsAsWritten(target: string, key: string, value: string): (r: Result<string>)
    ensures r == Err(AttributeError)
  {
    var u := Split(target);
    var qsl := ParseQsl(u.query) + [(key, value)];
    assert "urlencode" !in SixMovesUrllib by {
      assert "urlencode"[0] != "parse"[0] && "urlencode"[0] != "error"[0];
      assert "urlencode"[0] != "request"[0] && "urlencode"[0] != "response"[0];
      assert "urlencode"[0] != "robotparser"[0];
    }
    match UrllibAttribute("urlencode")
    case Err(e) => Err(e)
    case Ok(_) => Ok(Unsplit(u.(query := Urlencode(qsl))))
  }

  /** `append_qs(target, key, value)` as intended, with `urlencode` taken
      from `urllib.parse`: the URL with `(key, value)` appended to the
      parsed query pairs. */
  function AppendQs(target: string, key: string, value: string := ""): (r: string)
    ensures '?' in r
    ensures |Split(target).head| < |r| && r[..|Split(target).head|] == Split(target).head
    ensures r[|Split(target).head|] == '?'
  {
    var u := Split(target);
    var q := Urlencode(ParseQsl(u.query) + [(key, value)]);
    assert q != "";
    var r := Unsplit(u.(query := q));
    assert r[|u.head|] == '?';
    r
  }

  /** Appending keeps the part before the query and the fragment, keeps the
      existing readable pairs in order and puts the new pair last; a pair
      with a blank value (the default) is written but not read back. */
  lemma AppendQsQuery(target: string, key: string, value: string)
    requires '&' !in key && '=' !in key && '#' !in key
    requires '&' !in value && '#' !in value
    ensures var before, after := Split(target), Split(AppendQs(target, key, value));
            && after.head == before.head
            && after.fragment == before.fragment
            && (value != "" ==> ParseQsl(after.query) == ParseQsl(before.query) + [(key, value)])
            && (value == "" ==> ParseQsl(after.query) == ParseQsl(before.query))
  {
    var u := Split(target);
    var existing := ParseQsl(u.query);
    AppendQsKeepsParts(target, key, value);
    ParsedReadable(SplitOn(u.query, '&'));
    if value != "" {
      ParseUrlencode(existing + [(key, value)]);
    } else {
      ParseAppendBlank(existing, key);
    }
  }

  /** No character but the separators enters `urlencode` from outside the pairs. */
  lemma UrlencodeAvoids(ps: seq<Pair>, c: char)
    requires c != '&' && c != '='
    requires forall i :: 0 <= i < |ps| ==> c !in ps[i].0 && c !in ps[i].1
    ensures c !in Urlencode(ps)
  {
    if |ps| > 0 {
      var fields := EncodePairs(ps);
      forall i | 0 <= i < |fields|
        ensures c !in fields[i]
      {
        assert fields[i] == ps[i].0 + "=" + ps[i].1;
      }
      JoinAvoids(fields, '&', c);
    }
  }

  /** `append_qs` replaces the query of the split URL by the encoded pairs. */
  lemma AppendQsKeepsParts(target: string, key: string, value: string)
    requires '#' !in key && '#' !in value
    ensures var u := Split(target);
            Split(AppendQs(target, key, value)) == u.(query := Urlencode(ParseQsl(u.query) + [(key, value)]))
  {
    var u := Split(target);
    var ps := ParseQsl(u.query) + [(key, value)];
    SplitOnAvoids(u.query, '&', '#');
    ParsedAvoids(SplitOn(u.query, '&'), '#');
    UrlencodeAvoids(ps, '#');
    SplitUnsplit(u.(query := Urlencode(ps)));
  }

  lemma EncodePairsAppend(ps: seq<Pair>, p: Pair)
    ensures EncodePairs(ps + [p]) == EncodePairs(ps) + [EncodePair(p)]
  {
    var l, r := EncodePairs(ps + [p]), EncodePairs(ps) + [EncodePair(p)];
    assert |l| == |r|;
    forall i | 0 <= i < |l|
      ensures l[i] == r[i]
    {
      if i < |ps| {
        assert (ps + [p])[i] == ps[i];
      }
    }
  }

  /** A pair with a blank value is written but not parsed back. */
  lemma ParseAppendBlank(existing: seq<Pair>, key: string)
    requires forall i :: 0 <= i < |existing| ==> Readable(existing[i])
    requires '&' !in key && '=' !in key
    ensures ParseQsl(Urlencode(existing + [(key, "")])) == existing
  {
    var ps := existing + [(key, "")];
    var fields := EncodePairs(ps);
    forall i | 0 <= i < |fields|
      ensures '&' !in fields[i]
    {
      assert fields[i] == ps[i].0 + "=" + ps[i].1;
    }
    SplitOnJoin(fields, '&');
    EncodePairsAppend(existing, (key, ""));
    assert EncodePair((key, "")) == key + "=";
    ParseFieldsAppend(EncodePairs(existing), key + "=");
    ParseEncodedFields(existing);
    FindAfter(key, '=', "");
  }

  /** A character no part holds (other than the separator) is not in the join. */
  lemma {:induction false} JoinAvoids(parts: seq<string>, sep: char, c: char)
    requires |parts| >= 1 && c != sep
    requires forall i :: 0 <= i < |parts| ==> c !in parts[i]
    ensures c !in Join(parts, sep)
    decreases |parts|
  {
    if |parts| > 1 {
      JoinAvoids(parts[1..], sep, c);
    }
  }

  lemma {:induction false} ParseFieldsAppend(fields: seq<string>, last: string)
    ensures ParseFields(fields + [last])
         == ParseFields(fields) + (match ParseField(last) case None => [] case Some(p) => [p])
    decreases |fields|
  {
    if |fields| == 0 {
      assert fields + [last] == [last];
    } else {
      assert (fields + [last])[1..] == fields[1..] + [last];
      ParseFieldsAppend(fields[1..], last);
    }
  }

  lemma ParseQslExisting()
    ensures ParseQsl("x=1") == [("x", "1")]
  {
    assert Find("x=1", '&') == 3;
    assert SplitOn("x=1", '&') == ["x=1"];
    assert Find("x=1", '=') == 1;
    assert "x=1"[..1] == "x" && "x=1"[2..] == "1";
    assert ParseField("x=1") == Some(("x", "1"));
    assert ParseFields(["x=1"]) == [("x", "1")] + ParseFields([]);
  }

  lemma EncodeOnePair()
    ensures Urlencode([("a", "1")]) == "a=1"
  {
    assert EncodePair(("a", "1")) == "a=1";
    assert EncodePairs([("a", "1")]) == ["a=1"];
  }

  lemma EncodeTwoPairs()
    ensures Urlencode([("x", "1"), ("a", "1")]) == "x=1&a=1"
  {
    assert EncodePair(("x", "1")) == "x=1";
    assert EncodePair(("a", "1")) == "a=1";
    assert EncodePairs([("x", "1"), ("a", "1")]) == ["x=1", "a=1"];
    assert Join(["x=1", "a=1"], '&') == "x=1" + "&" + "a=1";
  }

  /** `append_qs` replaces the query of the split URL by the encoded pairs
      and puts the URL back together. */
  lemma AppendQsUnfold(target: string, key: string, value: string)
    ensures var u := Split(target);
            AppendQs(target, key, value) == Unsplit(u.(query := Urlencode(ParseQsl(u.query) + [(key, value)])))
  {
  }

  /** A URL whose query is `query` splits into the part before it and the query. */
  lemma SplitWithQuery(head: string, query: string)
    requires '?' !in head && '#' !in head && '#' !in query && query != ""
    ensures Split(head + ("?" + query)) == Url(head, query, "")
  {
    var u := Url(head, query, "");
    assert Unsplit(u) == head + ("?" + query) + "";
    assert head + ("?" + query) + "" == head + ("?" + query);
    SplitUnsplit(u);
  }

  lemma UnsplitFresh(head: string)
    ensures Unsplit(Url(head, "a=1", "")) == head + "?a=1"
  {
    assert "?" + "a=1" == "?a=1";
  }

  /** A URL without a query gains one. */
  lemma AppendQsFreshExample(head: string)
    requires '?' !in head && '#' !in head
    ensures AppendQs(head, "a", "1") == head + "?a=1"
  {
    AppendQsUnfold(head, "a", "1");
    assert Split(head) == Url(head, "", "");
    assert ParseQsl("") + [("a", "1")] == [("a", "1")];
    EncodeOnePair();
    UnsplitFresh(head);
  }

  lemma EncodeExisting()
    ensures Urlencode(ParseQsl("x=1") + [("a", "1")]) == "x=1&a=1"
  {
    ParseQslExisting();
    EncodeTwoPairs();
    assert ParseQsl("x=1") + [("a", "1")] == [("x", "1"), ("a", "1")];
  }

  lemma SplitExisting(head: string)
    requires '?' !in head && '#' !in head
    ensures Split(head + "?x=1") == Url(head, "x=1", "")
  {
    assert "?" + "x=1" == "?x=1";
    SplitWithQuery(head, "x=1");
  }

  lemma UnsplitAppended(head: string)
    ensures Unsplit(Url(head, "x=1&a=1", "")) == head + "?x=1&a=1"
  {
    assert "?" + "x=1&a=1" == "?x=1&a=1";
  }

  /** A URL with a query keeps its pairs in front of the new one. */
  lemma AppendQsExistingExample(head: string)
    requires '?' !in head && '#' !in head
    ensures AppendQs(head + "?x=1", "a", "1") == head + "?x=1&a=1"
  {
    AppendQsUnfold(head + "?x=1", "a", "1");
    SplitExisting(head);
    EncodeExisting();
    UnsplitAppended(head);
  }
}

=== FILE: utf8.dfy ===
/**
 UTF-8 (RFC 3629) encoding of Unicode scalar values, as performed by Python's
 `str.encode('utf-8')`, with the decoder that inverts it.
 */
module Utf8 {

  import opened Values

  /** A continuation byte `10xxxxxx` carrying the low six bits of `n`. */
  function Cont(n: nat): Byte {
    0x80 + n % 64
  }

  predicate IsCont(b: Byte) {
    0x80 <= b < 0xC0
  }

  /** The one to four bytes encoding a single character. */
  function EncodeChar(c: char): (r: seq<Byte>)
    ensures 1 <= |r| <= 4
    ensures |r| == 1 <==> (c as int) < 0x80
    ensures forall i :: 1 <= i < |r| ==> IsCont(r[i])
  {
    var cp := c as int;
    if cp < 0x80 then [cp]
    else if cp < 0x800 then [0xC0 + cp / 64, Cont(cp)]
    else if cp < 0x10000 then [0xE0 + cp / 4096, Cont(cp / 64), Cont(cp)]
    else [0xF0 + cp / 262144, Cont(cp / 4096), Cont(cp / 64), Cont(cp)]
  }

  /** The concatenated encodings of the characters of `s`. */
  function Encode(s: string): (r: seq<Byte>)
    ensures |s| <= |r| <= 4 * |s|
  {
    if |s| == 0 then [] else EncodeChar(s[0]) + Encode(s[1..])
  }

  /** An ASCII string encodes to one byte per character, each the code point. */
  lemma {:induction false} EncodeAscii(s: string)
    requires forall i :: 0 <= i < |s| ==> (s[i] as int) < 0x80
    ensures |Encode(s)| == |s|
    ensures forall i :: 0 <= i < |s| ==> Encode(s)[i] == s[i] as int
  {
    if |s| > 0 {
      EncodeAscii(s[1..]);
    }
  }

  function Payload(b: Byte): int {
    b - 0x80
  }

  /** A code point may become a `char` when it is a Unicode scalar value. */
  predicate IsScalar(cp: int) {
    (0 <= cp < 0xD800) || (0xE000 <= cp < 0x110000)
  }

  /** Decodes the first character of `bs`, returning it with the number of
      bytes it took; rejects overlong forms, surrogates and values above
      U+10FFFF, as RFC 3629 requires. */
  function DecodeFirst(bs: seq<Byte>): (r: Option<(char, nat)>)
    requires |bs| > 0
    ensures r.Some? ==> 1 <= r.value.1 <= |bs|
  {
    var b0 := bs[0];
    if b0 < 0x80 then Some((b0 as char, 1))
    else if 0xC0 <= b0 < 0xE0 && |bs| >= 2 && IsCont(bs[1]) then
      var cp := (b0 - 0xC0) * 64 + Payload(bs[1]);
      if 0x80 <= cp then Some((cp as char, 2)) else None
    else if 0xE0 <= b0 < 0xF0 && |bs| >= 3 && IsCont(bs[1]) && IsCont(bs[2]) then
      var cp := (b0 - 0xE0) * 4096 + Payload(bs[1]) * 64 + Payload(bs[2]);
      if 0x800 <= cp && IsScalar(cp) then Some((cp as char, 3)) else None
    else if 0xF0 <= b0 < 0xF8 && |bs| >= 4 && IsCont(bs[1]) && IsCont(bs[2]) && IsCont(bs[3]) then
      var cp := (b0 - 0xF0) * 262144 + Payload(bs[1]) * 4096 + Payload(bs[2]) * 64 + Payload(bs[3]);
      if 0x10000 <= cp && IsScalar(cp) then Some((cp as char, 4)) else None
    else None
  }

  /** Python's `bytes.decode('utf-8')`: the string the bytes encode, or
      `None` (a `UnicodeDecodeError`) when they are not valid UTF-8. */
  function Decode(bs: seq<Byte>): Option<string>
    decreases |bs|
  {
    if |bs| == 0 then Some([])
    else match DecodeFirst(bs)
      case None => None
      case Some((c, n)) =>
        match Decode(bs[n..])
        case None => None
        case Some(rest) => Some([c] + rest)
  }

  /** Decoding the encoding of one character, followed by anything, yields
      that character and the length of its encoding. */
  lemma DecodeFirstEncodeChar(c: char, tail: seq<Byte>)
    ensures DecodeFirst(EncodeChar(c) + tail) == Some((c, |EncodeChar(c)|))
  {
    var cp := c as int;
    if cp < 0x80 {
    } else if cp < 0x800 {
      DecodeTwo(c, tail);
    } else if cp < 0x10000 {
      DecodeThree(c, tail);
    } else {
      DecodeFour(c, tail);
    }
  }

  lemma DecodeTwo(c: char, tail: seq<Byte>)
    requires 0x80 <= c as int < 0x800
    ensures DecodeFirst(EncodeChar(c) + tail) == Some((c, 2))
  {
    var cp := c as int;
    var bs := EncodeChar(c) + tail;
    var hi, lo := cp / 64, cp % 64;
    assert cp == hi * 64 + lo;
    assert bs[0] == 0xC0 + hi && Payload(bs[1]) == lo;
  }

  lemma DecodeThree(c: char, tail: seq<Byte>)
    requires 0x800 <= c as int < 0x10000
    ensures DecodeFirst(EncodeChar(c) + tail) == Some((c, 3))
  {
    var cp := c as int;
    var bs := EncodeChar(c) + tail;
    var hi, mid, lo := cp / 4096, (cp / 64) % 64, cp % 64;
    assert cp / 64 == hi * 64 + mid;
    assert cp == hi * 4096 + mid * 64 + lo;
    assert bs[0] == 0xE0 + hi && Payload(bs[1]) == mid && Payload(bs[2]) == lo;
  }

  lemma DecodeFour(c: char, tail: seq<Byte>)
    requires 0x10000 <= c as int
    ensures DecodeFirst(EncodeChar(c) + tail) == Some((c, 4))
  {
    var cp := c as int;
    var bs := EncodeChar(c) + tail;
    var top, hi, mid, lo := cp / 262144, (cp / 4096) % 64, (cp / 64) % 64, cp % 64;
    assert cp / 4096 == top * 64 + hi;
    assert cp / 64 == (cp / 4096) * 64 + mid;
    assert cp == (cp / 64) * 64 + lo;
    assert cp == top * 262144 + hi * 4096 + mid * 64 + lo;
    assert bs[0] == 0xF0 + top && Payload(bs[1]) == hi && Payload(bs[2]) == mid && Payload(bs[3]) == lo;
  }

  /** Decoding inverts encoding: `s.encode('utf-8').decode('utf-8') == s`. */
  lemma {:induction false} DecodeEncode(s: string)
    ensures Decode(Encode(s)) == Some(s)
    decreases |s|
  {
    if |s| > 0 {
      var e := EncodeChar(s[0]);
      var bs := Encode(s);
      assert bs == e + Encode(s[1..]);
      DecodeFirstEncodeChar(s[0], Encode(s[1..]));
      assert bs[|e|..] == Encode(s[1..]);
      DecodeEncode(s[1..]);
      assert [s[0]] + s[1..] == s;
    }
  }
}

=== FILE: values.dfy ===
/**
 The slice of Python's dynamic value model that the client relies on: the
 values a request body, a header map or a decoded JSON response can hold,
 Python truthiness, `==`, the `in` operator, subscripting with a string key,
 and the question whether `json.dumps` accepts a value.

 Every Python operation that can raise is modelled as a function into
 `Result`, carrying the exception class the interpreter would raise.
 */
module Values {

  /** A Python value. `Dict` keys are strings, as in every map the client
      builds and in every decoded JSON object. `Bytes` is the raw content of a
      response that was not JSON; `Object` is any other Python object (the
      client instance itself, say), identified by its `id()`. */
  datatype Value =
    | PyNone
    | Bool(b: bool)
    | Int(i: int)
    | Str(s: string)
    | List(items: seq<Value>)
    | Dict(entries: map<string, Value>)
    | Bytes(data: seq<Byte>)
    | Object(id: nat)

  type Dict = map<string, Value>

  /** An octet of a `bytes` object. */
  type Byte = x: int | 0 <= x < 256

  /** The exceptions the modelled code can raise. */
  datatype Error =
    | TypeError
    | KeyError(key: string)
    | AttributeError
    | IndexError
    | NotImplemented
    | InvalidRequestMethod
    | CheckConnectionFailed(response: Value)
    | ListNotFound

  datatype Result<+T> = Ok(value: T) | Err(error: Error) {
    predicate IsFailure() {
      Err?
    }

    function PropagateFailure<U>(): Result<U>
      requires Err?
    {
      Err(error)
    }

    function Extract(): T
      requires Ok?
    {
      value
    }
  }

  datatype Option<+T> = None | Some(value: T)

  /** Python's `bool(v)`: None, False, 0 and every empty container are falsy;
      every other value (any object without `__bool__`/`__len__`) is truthy. */
  predicate Truthy(v: Value)
    ensures v.Bool? || v.Int? ==> (Truthy(v) <==> !Eq(v, Int(0)))
    ensures v.Str? ==> (Truthy(v) <==> !Eq(v, Str("")))
    ensures v.List? ==> (Truthy(v) <==> !Eq(v, List([])))
    ensures v.Dict? ==> (Truthy(v) <==> !Eq(v, Dict(map[])))
    ensures v.Bytes? ==> (Truthy(v) <==> !Eq(v, Bytes([])))
  {
    match v
    case PyNone => false
    case Bool(b) => b
    case Int(i) => i != 0
    case Str(s) => |s| > 0
    case List(items) => |items| > 0
    case Dict(entries) => |entries| > 0
    case Bytes(data) => |data| > 0
    case Object(_) => true
  }

  /** The falsy values named most often: Python's None, False, 0 and ''. */
  lemma FalsyScalars()
    ensures !Truthy(PyNone) && !Truthy(Bool(false)) && !Truthy(Int(0)) && !Truthy(Str(""))
    ensures !Truthy(List([])) && !Truthy(Dict(map[]))
    ensures forall s: string :: s != "" ==> Truthy(Str(s))
  {
  }

  /** `int(b)` for a boolean: Python's `bool` is a subclass of `int`. */
  function BoolInt(b: bool): int {
    if b then 1 else 0
  }

  /** Python's `a == b`. Booleans compare equal to the integers 1 and 0,
      containers compare element-wise, objects by identity. */
  predicate Eq(a: Value, b: Value)
    decreases a
  {
    match (a, b)
    case (PyNone, PyNone) => true
    case (Bool(x), Bool(y)) => x == y
    case (Bool(x), Int(n)) => BoolInt(x) == n
    case (Int(m), Bool(y)) => m == BoolInt(y)
    case (Int(m), Int(n)) => m == n
    case (Str(s), Str(t)) => s == t
    case (Bytes(x), Bytes(y)) => x == y
    case (List(xs), List(ys)) =>
      |xs| == |ys| && forall i :: 0 <= i < |xs| ==> Eq(xs[i], ys[i])
    case (Dict(m), Dict(n)) =>
      m.Keys == n.Keys && forall k :: k in m ==> Eq(m[k], n[k])
    case (Object(x), Object(y)) => x == y
    case _ => false
  }

  /** Python's `==` is reflexive on every value the model has. */
  lemma {:induction false} EqReflexive(a: Value)
    ensures Eq(a, a)
    decreases a
  {
    match a
    case List(xs) =>
      forall i | 0 <= i < |xs|
        ensures Eq(xs[i], xs[i])
      {
        EqReflexive(xs[i]);
      }
    case Dict(m) =>
      forall k | k in m
        ensures Eq(m[k], m[k])
      {
        EqReflexive(m[k]);
      }
    case _ =>
  }

  /** Python's `==` is symmetric on every value the model has. */
  lemma {:induction false} EqSymmetric(a: Value, b: Value)
    ensures Eq(a, b) <==> Eq(b, a)
    decreases a
  {
    match (a, b)
    case (List(xs), List(ys)) =>
      if |xs| == |ys| {
        forall i | 0 <= i < |xs|
          ensures Eq(xs[i], ys[i]) <==> Eq(ys[i], xs[i])
        {
          EqSymmetric(xs[i], ys[i]);
        }
      }
    case (Dict(m), Dict(n)) =>
      if m.Keys == n.Keys {
        forall k | k in m
          ensures Eq(m[k], n[k]) <==> Eq(n[k], m[k])
        {
          EqSymmetric(m[k], n[k]);
        }
      }
    case _ =>
  }

  /** Comparing against a string is string equality: nothing but the same
      `str` equals a `str`. */
  lemma EqStr(a: Value, t: string)
    ensures Eq(a, Str(t)) <==> a == Str(t)
  {
  }

  /** Comparing against `[]` holds exactly for the empty list. */
  lemma EqEmptyList(a: Value)
    ensures Eq(a, List([])) <==> a == List([])
  {
  }

  /** `needle` occurs in `hay` starting at position `i`. */
  predicate OccursAt(needle: string, hay: string, i: int) {
    0 <= i <= |hay| - |needle| && hay[i..i + |needle|] == needle
  }

  /** `needle` occurs as a contiguous slice of `hay`. */
  predicate IsSubstring(needle: string, hay: string) {
    exists i :: 0 <= i <= |hay| && OccursAt(needle, hay, i)
  }

  /** Python's `key in container` for a string `key`: key membership for a
      dict, element equality for a list, substring search for a str;
      a `TypeError` for bytes and for every value that is not a container. */
  function Contains(container: Value, key: string): (r: Result<bool>)
    ensures container.Dict? ==> r == Ok(key in container.entries)
    ensures r.Err? <==> !(container.Dict? || container.List? || container.Str?)
    ensures r.Err? ==> r.error == TypeError
  {
    match container
    case Dict(m) => Ok(key in m)
    case List(xs) => Ok(exists i :: 0 <= i < |xs| && Eq(xs[i], Str(key)))
    case Str(s) => Ok(IsSubstring(key, s))
    case _ => Err(TypeError)
  }

  /** Python's `container[key]` for a string `key`: a dict lookup that raises
      `KeyError` when the key is missing; sequences need integer indices and
      scalars are not subscriptable, so both raise `TypeError`. */
  function GetItem(container: Value, key: string): (r: Result<Value>)
    ensures r.Ok? <==> container.Dict? && key in container.entries
    ensures r.Ok? ==> r.value == container.entries[key]
    ensures container.Dict? && key !in container.entries ==> r == Err(KeyError(key))
    ensures !container.Dict? ==> r == Err(TypeError)
  {
    match container
    case Dict(m) => if key in m then Ok(m[key]) else Err(KeyError(key))
    case _ => Err(TypeError)
  }

  /** Whether `json.dumps` accepts the value: bytes and arbitrary objects
      raise `TypeError`, and so does any container holding one. */
  predicate Serializable(v: Value)
    decreases v
  {
    match v
    case Bytes(_) => false
    case Object(_) => false
    case List(xs) => forall i :: 0 <= i < |xs| ==> Serializable(xs[i])
    case Dict(m) => forall k :: k in m ==> Serializable(m[k])
    case _ => true
  }

  /** A dict is serializable exactly when each of its values is. */
  predicate SerializableDict(d: Dict) {
    forall k :: k in d ==> Serializable(d[k])
  }
}
